=== FILE: README.md ===
# ralph: the autonomous agent loop, modelled in Dafny

`ralph` runs a coding agent (the `claude` command-line program) over and over
on a prompt file, until a product requirements document (`PRD.json`) says
every feature is passing or a cap on the iteration count is reached. Each
iteration does four things. It re-reads the PRD and checks whether it is
complete. It reads the prompt, and a prompt that cannot be read ends the
process with status 1. In a dry run it only shows the prompt. Otherwise it
appends a start entry to the progress log, runs the agent, and appends one
entry that classifies how the agent ended. `ralph --init` does not run the
loop: it only scaffolds a project, making `.claude/commands` and writing nine
template files, never overwriting one that exists, and then returns.

The model is purely functional. What reading the PRD file and the prompt file
returns, and how the agent run ends, are oracle functions in an environment,
indexed by iteration number. The JSON parser is one fixed function from text
to a PRD or an error.
A run of the loop is a trace of events: completion checks, dry-run displays,
log appends, agent runs and the exit. The scaffold works on a file system
value: a set of directories and a map from file paths to contents.

The iteration numbering is checked against two reference lists computed from
the loop's decisions alone, without building the trace. `AgentRuns` lists the
iterations the agent should run for, and `CheckedIterations` lists the
iterations whose completion check should run. Lemmas show that the trace's
agent runs and completion checks are exactly these lists.

Modules, one per file:

- `Wrappers` (`wrappers.dfy`): the `Result` type.
- `Decimal` (`decimal.dfy`): decimal rendering of numbers in log messages, and reading it back.
- `Agent` (`agent.dfy`): exit statuses, launch outcomes and the agent's command line (`run_claude`).
- `Progress` (`progress.dfy`): progress-log entries and their message text (`log_progress` call sites).
- `PrdStatus` (`prd.dfy`): the PRD data model, `check_prd_complete` and its status summary.
- `RalphLoop` (`ralph_loop.dfy`): `run_loop`, both as a recursive trace function and as an imperative loop proved equal to it.
- `Scaffold` (`scaffold.dfy`): `init_project` and `get_templates`.

Two places where the behaviour may surprise a reader, modelled as the code has it:

- An empty feature list counts as complete: `Iterator::all` over no features gives true, so the loop stops at once.
- Running `--init` twice can give different reports. When something was missing, the first run creates each missing file, and the second run skips every template. The files are the same after both runs.

## Model

| member | source | states |
|---|---|---|
| PrdStatus.AllPassing | src/main.rs:201 | the verdict is true exactly when every feature's status is Passing, so an empty list gives true |
| PrdStatus.CountPassing | src/main.rs:204 | the passing count is at most the number of features, and equals it exactly when every feature is passing |
| PrdStatus.CountPassingAppend | src/main.rs:204 | the passing count of two concatenated lists is the sum of their counts |
| PrdStatus.CountPassingIsPositions | src/main.rs:204 | the passing count is the number of positions that hold a passing feature |
| PrdStatus.Summarize | src/main.rs:201-211 | the summary's total is the number of features and its passing count is the number of passing positions; passing ≤ total, with equality exactly when all features pass |
| PrdStatus.CheckPrdComplete | src/main.rs:197-214 | a read failure gives that error, then a parse failure gives that error; success happens exactly when both steps succeed; on success the result is true iff every feature is passing |
| PrdStatus.SummaryMatchesVerdict | src/main.rs:201-213 | the completion verdict is exactly "passing equals total" in the printed summary |
| PrdStatus.EmptyPrdIsComplete | src/main.rs:201 | a PRD that parses with no features is complete |
| PrdStatus.OneFailingFeatureBlocks | src/main.rs:201 | one feature that is not passing, at any position, makes the verdict false |
| Agent.ClaudeCommand | src/main.rs:216-224 | the program is `claude`; the prompt is the first argument; the permission-bypass flag is the second argument, present exactly when requested |
| Agent.CommandRoundTrip | src/main.rs:216-224 | the prompt and the bypass choice can be read back from the command line, even when the prompt equals the flag's text |
| Decimal.Show | src/main.rs:170 | the rendering of a number is a non-empty digit string with no leading zero |
| Decimal.ValueOfShow | src/main.rs:170 | reading the decimal rendering back gives the number |
| Decimal.ShowInjective | src/main.rs:170 | distinct numbers render differently |
| Decimal.DigitsThenNonDigit | src/main.rs:177 | a number's digits followed by text that starts with a non-digit split in one way only |
| Progress.ResultEntry | src/main.rs:175-186 | the result entry is for the same iteration; it is the success entry exactly for exit code 0, the status entry exactly for another exit status (carrying that status), and the failure entry exactly for a launch error (carrying the error) |
| Progress.ResultTail | src/main.rs:177-184 | the text after the iteration number in a result message is non-empty and starts with a space |
| Progress.StatusTextInjective | src/main.rs:180 | different exit statuses are displayed differently |
| Progress.ResultTailInjective | src/main.rs:177-184 | the result text determines the kind of outcome, the exit status and the launch error |
| Progress.StatusText | src/main.rs:180 | the display text of an exit status, "exit status: N" or "signal: N"; `Progress.StatusTextInjective` states what it preserves |
| Progress.Message | src/main.rs:170-184 | the text of each log entry: "Starting iteration N", or "Iteration N" followed by the result tail; `Progress.MessageInjective` states what it preserves |
| Progress.MessageInjective | src/main.rs:170-184 | different log entries have different messages, so the log text determines the entry kind, the iteration, the status and the error |
| RalphLoop.CapReached | src/main.rs:126 | the cap fires at iteration n exactly when the cap is positive and n exceeds it |
| RalphLoop.RunFrom | src/main.rs:122-192 | the trace of at most fuel passes of the loop from iteration n: each pass's events, then the later passes when the pass goes on; the lemmas below state its properties |
| RalphLoop.RunLoop | src/main.rs:117-195 | the trace of `run_loop` from iteration 1; the lemmas below state its properties |
| RalphLoop.ExitCode | src/main.rs:153-158 | the process status for each way the loop ends: 1 for the unreadable prompt's `exit(1)`, and 0 when the loop breaks and `main` returns normally (src/main.rs:75-76); it has no contract of its own, and `RalphLoop.ExitStatus` ties it to the trace |
| RalphLoop.ExitStatus | src/main.rs:126-160 | when the loop exits, the `ExitCode` status is 1 exactly when some iteration found the PRD not complete and then could not read the prompt, and 0 for the cap and for completion; every such iteration is followed at once by the unreadable-prompt exit, which ends the trace |
| RalphLoop.Iteration | src/main.rs:122-191 | a pass goes on to the next iteration exactly when the cap has not fired, the PRD check did not return Ok(true) and the prompt was read; the agent's outcome never stops the loop |
| RalphLoop.RunLoopMethod | src/main.rs:117-195 | `run_loop` written as a loop over a counter incremented at the top of each pass, with the cap and completion breaks, the prompt-read exit and the dry-run continue inside the body, produces exactly the trace of the recursive `RunLoop` |
| RalphLoop.LoopStep | src/main.rs:122-192 | one pass of the loop turns the loop invariant for iteration n into the invariant for n + 1, or into the final trace |
| RalphLoop.ExitIsFinal | src/main.rs:128-158 | an exit, for any reason, is the last event of the trace |
| RalphLoop.NoInvocationAfterCompletion | src/main.rs:132-136 | a completion check that returns Ok(true) is followed at once by the exit, and no agent run follows it |
| RalphLoop.CheckPrecedesInvocation | src/main.rs:131-186 | every agent run comes after that iteration's completion check, which was not Ok(true), and after its start entry; it gets the prompt read in that iteration and is followed by the one result entry for its outcome |
| RalphLoop.DryRunNeverInvokes | src/main.rs:162-167 | a dry run never runs the agent and never writes to the progress log |
| RalphLoop.Interval | src/main.rs:120-123 | the sequence lo, lo + 1, ..., hi - 1 of iteration numbers |
| RalphLoop.InvocationsAppend | src/main.rs:173 | the agent runs of a concatenated trace are those of the first part followed by those of the second |
| RalphLoop.ChecksAppend | src/main.rs:132 | the completion checks of a concatenated trace are those of the first part followed by those of the second |
| RalphLoop.IterationCounts | src/main.rs:126-173 | a pass checks the PRD once unless capped, and runs the agent once exactly when it goes on outside a dry run |
| RalphLoop.InvocationsStep | src/main.rs:122-192 | one pass keeps the trace's agent runs equal to the reference list: its own run, if any, comes before those of the later passes |
| RalphLoop.InvocationsAreAgentRuns | src/main.rs:122-192 | the agent runs in the trace are exactly the reference list: every iteration that passes the cap, completion and prompt checks, outside a dry run, up to the first that does not |
| RalphLoop.ChecksStep | src/main.rs:122-141 | one pass keeps the trace's completion checks equal to the reference list: its own check, unless capped, comes before those of the later passes |
| RalphLoop.ChecksAreCheckedIterations | src/main.rs:122-160 | the completion checks in the trace are exactly the reference list: every iteration up to the cap or to the first one that stops |
| RalphLoop.LogsAppend | src/main.rs:170-184 | the log entries of a concatenated trace are those of the first part followed by those of the second |
| RalphLoop.IterationLogs | src/main.rs:162-186 | a pass appends "Starting iteration n" and then its classified result entry when it runs the agent, and appends nothing otherwise |
| RalphLoop.LogsStep | src/main.rs:122-192 | one pass keeps the trace's log entries equal to the two entries of each reference agent run: its own pair, if any, comes before those of the later passes |
| RalphLoop.LogsAreRunEntries | src/main.rs:122-192 | the log entries of the trace from any iteration are exactly two per reference agent run, in run order |
| RalphLoop.TwoEntriesPerRun | src/main.rs:162-186 | the progress log gets exactly two entries per agent run, in run order: the start entry, then the result entry for that run's outcome; nothing else is appended |
| RalphLoop.InvocationsWithinCap | src/main.rs:120-129 | agent runs are numbered from 1 in increasing order; with a cap M > 0 none is numbered beyond M and there are at most M of them |
| RalphLoop.CheckedIterationsCapped | src/main.rs:122-129 | with a cap M > 0, the reference list of checked iterations holds no iteration beyond M |
| RalphLoop.ChecksAreConsecutive | src/main.rs:120-132 | the completion checks are for iterations 1, 2, 3, ... with none skipped or repeated; with a cap M > 0, no check is for an iteration beyond M |
| RalphLoop.IterationUpToCap | src/main.rs:126-129 | with a cap M > 0, every event of a pass other than its exit belongs to an iteration no later than M |
| RalphLoop.TaggedUpToStep | src/main.rs:122-192 | one pass keeps every non-exit event of the trace at an iteration no later than the cap |
| RalphLoop.TaggedUpToFrom | src/main.rs:122-192 | from any iteration, every non-exit event of the trace belongs to an iteration no later than the cap |
| RalphLoop.NothingPastCap | src/main.rs:126-129 | with a cap M > 0 the loop does nothing in iteration M + 1: no completion check, dry-run display, log entry or agent run belongs to an iteration beyond M, and only the cap exit can follow |
| RalphLoop.ExactlyCapInvocations | src/main.rs:122-129 | with a cap M > 0, no dry run, and a PRD that never completes with a readable prompt, the agent runs exactly M times, for iterations 1..M, and the loop then exits at the cap |
| RalphLoop.UnlimitedNeverCaps | src/main.rs:126 | with cap 0 the loop never exits for the iteration count; if the PRD never completes and the prompt always reads, every pass runs the agent once, numbered 1, 2, ..., and the loop does not exit |
| RalphLoop.PromptFailureIsFatal | src/main.rs:152-160 | an unreadable-prompt exit is the last event, right after the completion check of an iteration whose prompt read failed, and nothing is logged or run for that iteration |
| RalphLoop.UnreadablePrdContinues | src/main.rs:137-141 | a PRD that cannot be read or parsed is only a warning: the pass goes on, and outside a dry run it runs the agent |
| Scaffold.TemplatesWellFormed | src/main.rs:103-115 | there are nine templates with distinct paths; they include the default prompt and PRD paths and neither directory that init creates |
| Scaffold.GetTemplates | src/main.rs:103-115 | the nine template paths in the order they are written; `Scaffold.TemplatesWellFormed` states their properties |
| Scaffold.CreateCommandsDir | src/main.rs:82 | making the directories fails exactly when a file is in the way of `.claude` or `.claude/commands`; otherwise both directories exist and no file changes |
| Scaffold.InitWith | src/main.rs:78-95 | scaffolding fails exactly when the directories cannot be made |
| Scaffold.InitProject | src/main.rs:78-95 | `init_project` aborts exactly when a file is in the way of `.claude` or `.claude/commands` |
| Scaffold.WriteTemplates | src/main.rs:87-94 | the template loop: skip a path that exists, otherwise write the template, with one report per template; the lemmas below state its properties |
| Scaffold.WriteTemplatesKeeps | src/main.rs:87-94 | the template loop keeps every directory and every existing file's contents, and the only new files are template paths where nothing was |
| Scaffold.WriteTemplatesCovers | src/main.rs:87-94 | after the template loop every template path exists, and there is one report per template, for its path, in order |
| Scaffold.WriteTemplatesPreserves | src/main.rs:87-94 | the template loop keeps every directory and every existing file's contents; every template path exists afterwards; the only new files are template paths that were free; there is one report per template, in order |
| Scaffold.WriteTemplatesReports | src/main.rs:87-94 | with distinct paths, a template is reported "skip" exactly when its path existed and "create" exactly when it did not; a created file holds its template's contents |
| Scaffold.WriteTemplatesAllPresent | src/main.rs:87-94 | where every template path exists, the template loop reports only "skip" and changes nothing |
| Scaffold.InitWithNeverOverwrites | src/main.rs:78-95 | for any writable template list, scaffolding adds exactly the two directories, keeps every existing file, adds files only at template paths, makes every template path exist, reports "skip" exactly for the paths that existed and "create" exactly for the others, and writes each missing template's contents |
| Scaffold.InitWithIdempotent | src/main.rs:78-95 | for any writable template list, a second scaffold over the first one's result succeeds, changes nothing and reports "skip" for every template |
| Scaffold.InitNeverOverwrites | src/main.rs:78-115 | `init_project` never overwrites, adds only `.claude` and `.claude/commands` as directories and only template paths as files, creates exactly the missing templates with their contents, and reports "create" for each of them and "skip" for each path that existed |
| Scaffold.InitIdempotent | src/main.rs:78-115 | running `init_project` twice: the second run succeeds, reports "skip" for all nine templates and leaves the files unchanged |
| Scaffold.InitProvidesLoopInputs | src/main.rs:14-20 | after scaffolding, the loop's default prompt path and PRD path exist |

## Left out

- Terminal output: colours, banners, the printing of the prompt in a dry run, and the "Done! Next steps" text. The dry-run display is an event carrying the prompt text; the printing itself and the other printed lines have no counterpart.
- The iteration timestamp, the log entry's timestamp and its `## [...]` section framing. Clocks are not modelled.
- The delay between iterations, including the sleep that a dry run takes even when the delay is 0. Time is not modelled.
- Spawning the agent process and inheriting the terminal. The agent's outcome is an oracle per iteration.
- Reading files and parsing JSON. These are oracles: a file read gives a `Result` and the parser is a function parameter. So the lowercase spelling of feature statuses is not modelled.
- Appending to `progress.md`. An append is an event, and the silently ignored failure of the open or write is not modelled.
- Command-line parsing. The loop gets a `Config` holding the cap, the dry-run flag and the permission-bypass flag. The paths are the defaults, which only `Scaffold.InitProvidesLoopInputs` mentions.
- The template files' contents. These are embedded at build time, so each template's content is a placeholder named after its file.
- Progress.StatusText: the platform's display of an exit status is approximated as "exit status: N" or "signal: N".
- RalphLoop.RunLoopMethod: the loop counter and `Config.maxIterations` are unbounded naturals, while the counter and the `--max-iterations` flag are `u32`. So the `u32` overflow is not modelled. With `--max-iterations 4294967295`, `iteration += 1` (src/main.rs:123) overflows after iteration 4294967295, before `iteration > args.max_iterations` can hold. There the cap exit that `RalphLoop.ExactlyCapInvocations` proves does not happen: the build decides between a panic and a wrap to 0. The loop itself has no end in unlimited mode, so the model runs it for a given number of passes (`fuel`) and every loop property is about that finite prefix.
- Scaffold.InitProject: a failed file write, which panics with "Failed to write <path>", is not modelled. Only a file in the way of the directories makes the scaffold fail.
- The interview gate, brain-dump capture and editor probing. They are not part of `src/main.rs`, so they are not part of this model.

=== FILE: agent.dfy ===
/**
 The external coding agent as the loop sees it: the command line it is
 started with (`run_claude`) and the outcome of one synchronous run. Spawning
 the process and inheriting the terminal are outside the model; the outcome
 is an input.
 */
module Agent {

  /** How a process that ran ended: an exit code, or termination by a signal. */
  datatype ExitStatus = Code(code: nat) | Signal(signal: nat)

  /** `ExitStatus::success`: the process exited with code 0. */
  predicate IsSuccess(s: ExitStatus) {
    s == Code(0)
  }

  /** What `cmd.status()` returns: the process ran to an exit status, or it could not be started. */
  datatype Outcome = Exited(status: ExitStatus) | LaunchFailed(error: string)

  datatype Command = Command(program: string, args: seq<string>)

  const AgentProgram: string := "claude"
  const SkipPermissionsFlag: string := "--dangerously-skip-permissions"

  /**
   The agent's command line: the prompt as the one positional argument,
   followed by the permission-bypass flag exactly when it was asked for.
   */
  function ClaudeCommand(prompt: string, skipPermissions: bool): (c: Command)
    ensures c.program == AgentProgram
    ensures |c.args| == if skipPermissions then 2 else 1
    ensures c.args[0] == prompt
    ensures skipPermissions ==> c.args[1] == SkipPermissionsFlag
  {
    Command(AgentProgram, [prompt] + (if skipPermissions then [SkipPermissionsFlag] else []))
  }

  /** What the agent reads off its command line: the prompt and whether permissions are bypassed. */
  function ReadCommand(c: Command): (r: (string, bool))
    requires |c.args| >= 1
  {
    (c.args[0], |c.args| == 2 && c.args[1] == SkipPermissionsFlag)
  }

  /**
   The command line carries exactly what the loop meant to pass, even when the
   prompt text itself looks like the flag: the prompt always comes first.
   */
  lemma CommandRoundTrip(prompt: string, skipPermissions: bool)
    ensures ReadCommand(ClaudeCommand(prompt, skipPermissions)) == (prompt, skipPermissions)
  {
  }
}

=== FILE: decimal.dfy ===
/**
 Decimal rendering of iteration numbers and exit codes, as the `{}` format of
 an unsigned integer produces it in the progress-log messages: no sign, no
 leading zeros. `Value` reads a digit string back, so that a rendered number
 can be recovered from the text it appears in.
 */
module Decimal {

  predicate IsDigit(c: char) {
    '0' <= c <= '9'
  }

  predicate AllDigits(s: string) {
    forall i :: 0 <= i < |s| ==> IsDigit(s[i])
  }

  function DigitChar(d: nat): (c: char)
    requires d < 10
    ensures IsDigit(c)
    ensures c as int - '0' as int == d
  {
    ('0' as int + d) as char
  }

  /** The decimal text of `n`. */
  function Show(n: nat): (s: string)
    ensures |s| >= 1
    ensures AllDigits(s)
    ensures s[0] == '0' ==> n == 0
    decreases n
  {
    if n < 10 then [DigitChar(n)] else Show(n / 10) + [DigitChar(n % 10)]
  }

  /** The number a digit string denotes (most significant digit first). */
  function Value(s: string): nat
    requires AllDigits(s)
    decreases |s|
  {
    if |s| == 0 then 0
    else 10 * Value(s[..|s| - 1]) + (s[|s| - 1] as int - '0' as int)
  }

  /** Reading the rendering back gives the number: `Show` loses nothing. */
  lemma {:induction false} ValueOfShow(n: nat)
    ensures Value(Show(n)) == n
    decreases n
  {
    if n >= 10 {
      var s := Show(n);
      assert s[..|s| - 1] == Show(n / 10);
      ValueOfShow(n / 10);
    }
  }

  lemma ShowInjective(n: nat, m: nat)
    ensures Show(n) == Show(m) ==> n == m
  {
    ValueOfShow(n);
    ValueOfShow(m);
  }

  /**
   Where a digit string is followed by text that starts with a non-digit,
   the digit string is determined by the whole: two such concatenations are
   equal only if both parts are.
   */
  lemma DigitsThenNonDigit(a: string, x: string, b: string, y: string)
    requires AllDigits(a) && AllDigits(b)
    requires |x| > 0 && !IsDigit(x[0])
    requires |y| > 0 && !IsDigit(y[0])
    requires a + x == b + y
    ensures a == b && x == y
  {
    assert !IsDigit((b + y)[|a|]) by { assert (a + x)[|a|] == x[0]; }
    assert !IsDigit((a + x)[|b|]) by { assert (b + y)[|b|] == y[0]; }
    assert |a| == |b|;
    assert a == (a + x)[..|a|];
    assert b == (b + y)[..|b|];
    assert x == (a + x)[|a|..];
    assert y == (b + y)[|b|..];
  }
}

=== FILE: prd.dfy ===
/**
 The PRD (the feature list) and `check_prd_complete`: whether every feature is
 passing, and the passing/total summary shown alongside. Reading the file and
 parsing the JSON are inputs: the file read is a `Result` and the parser is a
 function parameter.
 */
module PrdStatus {
  import opened Wrappers

  datatype FeatureStatus = Pending | InProgress | Failing | Passing

  datatype Feature = Feature(
    id: string,
    title: string,
    description: string,
    status: FeatureStatus,
    acceptanceCriteria: seq<string>)

  datatype Prd = Prd(project: string, features: seq<Feature>)

  predicate IsPassing(f: Feature) {
    f.status == Passing
  }

  /** `features.iter().all(..)`: true for an empty list. */
  function AllPassing(fs: seq<Feature>): (r: bool)
    ensures r <==> forall i :: 0 <= i < |fs| ==> IsPassing(fs[i])
  {
    |fs| == 0 || (IsPassing(fs[0]) && AllPassing(fs[1..]))
  }

  /** `features.iter().filter(..).count()`. */
  function CountPassing(fs: seq<Feature>): (n: nat)
    ensures n <= |fs|
    ensures n == |fs| <==> forall i :: 0 <= i < |fs| ==> IsPassing(fs[i])
  {
    if |fs| == 0 then 0
    else (if IsPassing(fs[0]) then 1 else 0) + CountPassing(fs[1..])
  }

  /** The positions of the passing features. */
  function PassingPositions(fs: seq<Feature>): set<nat> {
    set i: nat | i < |fs| && IsPassing(fs[i])
  }

  lemma {:induction false} CountPassingAppend(a: seq<Feature>, b: seq<Feature>)
    ensures CountPassing(a + b) == CountPassing(a) + CountPassing(b)
    decreases |a|
  {
    if |a| > 0 {
      assert (a + b)[0] == a[0];
      assert (a + b)[1..] == a[1..] + b;
      CountPassingAppend(a[1..], b);
    } else {
      assert a + b == b;
    }
  }

  /** The passing positions of a list are those of all but its last feature, plus the last if it passes. */
  lemma PassingPositionsLast(fs: seq<Feature>)
    requires |fs| > 0
    ensures var k := |fs| - 1;
      PassingPositions(fs) == PassingPositions(fs[..k]) + (if IsPassing(fs[k]) then {k} else {})
  {
    var k := |fs| - 1;
    var init := fs[..k];
    var last: set<nat> := if IsPassing(fs[k]) then {k} else {};
    forall i: nat | i in PassingPositions(fs) ensures i in PassingPositions(init) + last {
      if i < k {
        assert init[i] == fs[i];
      }
    }
    forall i: nat | i in PassingPositions(init) ensures i in PassingPositions(fs) {
      assert init[i] == fs[i];
    }
  }

  /** The count is the number of positions that hold a passing feature. */
  lemma {:induction false} CountPassingIsPositions(fs: seq<Feature>)
    ensures CountPassing(fs) == |PassingPositions(fs)|
    decreases |fs|
  {
    if |fs| > 0 {
      var k := |fs| - 1;
      var init := fs[..k];
      assert fs == init + [fs[k]];
      CountPassingAppend(init, [fs[k]]);
      CountPassingIsPositions(init);
      PassingPositionsLast(fs);
      assert k !in PassingPositions(init);
    }
  }

  datatype Summary = Summary(passing: nat, total: nat)

  /** The "PRD status: passing/total" line. */
  function Summarize(prd: Prd): (s: Summary)
    ensures s.total == |prd.features|
    ensures s.passing == |PassingPositions(prd.features)|
    ensures s.passing <= s.total
    ensures s.passing == s.total <==> AllPassing(prd.features)
  {
    CountPassingIsPositions(prd.features);
    Summary(CountPassing(prd.features), |prd.features|)
  }

  /**
   `check_prd_complete`: an error when the file cannot be read or does not
   parse (the read error first), otherwise whether every feature is passing.
   */
  function CheckPrdComplete(content: Result<string, string>, parse: string -> Result<Prd, string>): (r: Result<bool, string>)
    ensures content.Failure? ==> r == Failure(content.error)
    ensures content.Success? && parse(content.value).Failure? ==> r == Failure(parse(content.value).error)
    ensures r.Success? <==> content.Success? && parse(content.value).Success?
    ensures r.Success? ==>
      var fs := parse(content.value).value.features;
      r.value <==> forall i :: 0 <= i < |fs| ==> IsPassing(fs[i])
  {
    match content
    case Failure(e) => Failure(e)
    case Success(text) =>
      match parse(text)
      case Failure(e) => Failure(e)
      case Success(prd) => Success(AllPassing(prd.features))
  }

  /** The summary agrees with the verdict: all are passing exactly when the count reaches the total. */
  lemma SummaryMatchesVerdict(content: Result<string, string>, parse: string -> Result<Prd, string>)
    requires content.Success? && parse(content.value).Success?
    ensures var s := Summarize(parse(content.value).value);
      CheckPrdComplete(content, parse) == Success(s.passing == s.total)
  {
  }

  /** An empty feature list counts as complete, as `Iterator::all` makes it. */
  lemma EmptyPrdIsComplete(content: Result<string, string>, parse: string -> Result<Prd, string>)
    requires content.Success? && parse(content.value).Success?
    requires parse(content.value).value.features == []
    ensures CheckPrdComplete(content, parse) == Success(true)
  {
  }

  /** One feature that is not passing, anywhere in the list, makes the verdict false. */
  lemma OneFailingFeatureBlocks(content: Result<string, string>, parse: string -> Result<Prd, string>, k: nat)
    requires content.Success? && parse(content.value).Success?
    requires k < |parse(content.value).value.features|
    requires !IsPassing(parse(content.value).value.features[k])
    ensures CheckPrdComplete(content, parse) == Success(false)
  {
  }
}

=== FILE: progress.dfy ===
/**
 The progress log's entries (`log_progress`). The loop appends one entry when
 an iteration starts and one classified result entry after the agent returns.
 The timestamped section framing and the file append itself are outside the
 model: an append is an event of the loop's trace.
 */
module Progress {
  import opened Decimal
  import opened Agent

  datatype Entry =
    | Started(iteration: nat)
    | Succeeded(iteration: nat)
    | ExitedWith(iteration: nat, status: ExitStatus)
    | Failed(iteration: nat, error: string)

  /** The entry logged after the agent of iteration `n` returned `outcome`. */
  function ResultEntry(n: nat, outcome: Outcome): (e: Entry)
    ensures e.iteration == n
    ensures e.Succeeded? <==> outcome.Exited? && IsSuccess(outcome.status)
    ensures e.ExitedWith? <==> outcome.Exited? && !IsSuccess(outcome.status)
    ensures e.Failed? <==> outcome.LaunchFailed?
    ensures e.ExitedWith? ==> e.status == outcome.status
    ensures e.Failed? ==> e.error == outcome.error
  {
    match outcome
    case Exited(s) => if IsSuccess(s) then Succeeded(n) else ExitedWith(n, s)
    case LaunchFailed(err) => Failed(n, err)
  }

  /** The display text of an exit status. */
  function StatusText(s: ExitStatus): string {
    match s
    case Code(c) => "exit status: " + Show(c)
    case Signal(k) => "signal: " + Show(k)
  }

  /** The message text of an entry. */
  function Message(e: Entry): string {
    if e.Started? then "Starting iteration " + Show(e.iteration)
    else "Iteration " + (Show(e.iteration) + ResultTail(e))
  }

  /** Dropping a common prefix. */
  lemma CancelPrefix(p: string, x: string, y: string)
    requires p + x == p + y
    ensures x == y
  {
    assert x == (p + x)[|p|..];
    assert y == (p + y)[|p|..];
  }

  lemma StatusTextInjective(s: ExitStatus, t: ExitStatus)
    ensures StatusText(s) == StatusText(t) ==> s == t
  {
    if StatusText(s) == StatusText(t) {
      assert StatusText(s)[0] == StatusText(t)[0];
      match s
      case Code(c) =>
        assert t.Code?;
        CancelPrefix("exit status: ", Show(c), Show(t.code));
        ShowInjective(c, t.code);
      case Signal(k) =>
        assert t.Signal?;
        CancelPrefix("signal: ", Show(k), Show(t.signal));
        ShowInjective(k, t.signal);
    }
  }

  /** The text after "Iteration <n>" in a result entry; it starts with a space. */
  function ResultTail(e: Entry): (tail: string)
    requires !e.Started?
    ensures |tail| > 0 && tail[0] == ' '
  {
    match e
    case Succeeded(_) => " completed successfully"
    case ExitedWith(_, s) => " exited with status: " + StatusText(s)
    case Failed(_, err) => " failed: " + err
  }

  lemma ResultTailInjective(e1: Entry, e2: Entry)
    requires !e1.Started? && !e2.Started?
    requires ResultTail(e1) == ResultTail(e2)
    ensures e1.Succeeded? <==> e2.Succeeded?
    ensures e1.ExitedWith? <==> e2.ExitedWith?
    ensures e1.ExitedWith? && e2.ExitedWith? ==> e1.status == e2.status
    ensures e1.Failed? && e2.Failed? ==> e1.error == e2.error
  {
    assert ResultTail(e1)[1] == ResultTail(e2)[1];
    if e1.ExitedWith? && e2.ExitedWith? {
      CancelPrefix(" exited with status: ", StatusText(e1.status), StatusText(e2.status));
      StatusTextInjective(e1.status, e2.status);
    }
    if e1.Failed? && e2.Failed? {
      CancelPrefix(" failed: ", e1.error, e2.error);
    }
  }

  /**
   Distinct entries have distinct messages: the log text determines the kind
   of entry, its iteration number, the exit status and the launch error.
   */
  lemma MessageInjective(e1: Entry, e2: Entry)
    ensures Message(e1) == Message(e2) ==> e1 == e2
  {
    if Message(e1) == Message(e2) {
      assert Message(e1)[0] == Message(e2)[0];
      if e1.Started? {
        assert e2.Started?;
        CancelPrefix("Starting iteration ", Show(e1.iteration), Show(e2.iteration));
        ShowInjective(e1.iteration, e2.iteration);
      } else {
        assert !e2.Started?;
        var t1, t2 := ResultTail(e1), ResultTail(e2);
        CancelPrefix("Iteration ", Show(e1.iteration) + t1, Show(e2.iteration) + t2);
        DigitsThenNonDigit(Show(e1.iteration), t1, Show(e2.iteration), t2);
        ShowInjective(e1.iteration, e2.iteration);
        ResultTailInjective(e1, e2);
      }
    }
  }
}

=== FILE: ralph_loop.dfy ===
/**
 The iteration loop (`run_loop`). Each pass increments the iteration counter,
 stops at the iteration cap, re-checks the PRD, reads the prompt (fatal when
 it cannot be read), and then either shows the prompt (dry run) or logs the
 start, runs the agent and logs its classified outcome.

 The world the loop reads is an environment. What reading the PRD file
 returns, what reading the prompt file returns and how the agent run ends are
 oracles indexed by the iteration number; the JSON parser is one fixed
 function from text to a PRD or an error. What the loop
 does is a trace of events. The loop itself never ends in unlimited mode, so
 the model runs it for a number of passes (`fuel`) and reasons about that
 finite prefix.
 */
module RalphLoop {
  import opened Wrappers
  import opened PrdStatus
  import opened Agent
  import opened Progress

  /** The command-line settings the loop uses; 0 iterations means no cap. */
  datatype Config = Config(maxIterations: nat, dryRun: bool, yolo: bool)

  datatype Env = Env(
    prdFile: nat -> Result<string, string>,
    parse: string -> Result<Prd, string>,
    promptFile: nat -> Result<string, string>,
    agent: nat -> Outcome)

  /** Why the loop ended. */
  datatype Stop = MaxIterationsReached | PrdComplete | PromptUnreadable

  datatype Event =
    | CheckedComplete(iteration: nat, result: Result<bool, string>)
    | DryRun(iteration: nat, prompt: string)
    | Logged(entry: Entry)
    | Invoked(iteration: nat, command: Command)
    | Exit(reason: Stop)

  /**
   The process exit status for each way the loop ends: an unreadable prompt
   calls `exit(1)`; the cap and completion break out of the loop, and `main`
   then returns normally.
   */
  function ExitCode(reason: Stop): nat {
    if reason == PromptUnreadable then 1 else 0
  }

  /** The iteration cap check: only a positive cap ever fires. */
  predicate CapReached(maxIterations: nat, n: nat) {
    maxIterations > 0 && n > maxIterations
  }

  /** The completion check of iteration `n`. */
  function CheckAt(env: Env, n: nat): Result<bool, string> {
    CheckPrdComplete(env.prdFile(n), env.parse)
  }

  predicate NoExit(t: seq<Event>) {
    forall i :: 0 <= i < |t| ==> !t[i].Exit?
  }

  /** The events of one pass, and whether the loop goes on to the next. */
  datatype Step = Step(events: seq<Event>, continues: bool)

  /** One pass of the loop body for iteration `n`. */
  function Iteration(cfg: Config, env: Env, n: nat): (s: Step)
    ensures s.continues <==>
      !CapReached(cfg.maxIterations, n) && CheckAt(env, n) != Success(true) && env.promptFile(n).Success?
  {
    if CapReached(cfg.maxIterations, n) then Step([Exit(MaxIterationsReached)], false)
    else
      var check := CheckAt(env, n);
      if check == Success(true) then Step([CheckedComplete(n, check), Exit(PrdComplete)], false)
      else
        match env.promptFile(n)
        case Failure(_) => Step([CheckedComplete(n, check), Exit(PromptUnreadable)], false)
        case Success(prompt) =>
          if cfg.dryRun then Step([CheckedComplete(n, check), DryRun(n, prompt)], true)
          else
            Step([CheckedComplete(n, check),
                  Logged(Started(n)),
                  Invoked(n, ClaudeCommand(prompt, cfg.yolo)),
                  Logged(ResultEntry(n, env.agent(n)))], true)
  }

  /** At most `fuel` passes of the loop, starting at iteration `n`. */
  function RunFrom(cfg: Config, env: Env, n: nat, fuel: nat): seq<Event>
    decreases fuel
  {
    if fuel == 0 then []
    else
      var s := Iteration(cfg, env, n);
      if s.continues then s.events + RunFrom(cfg, env, n + 1, fuel - 1) else s.events
  }

  /** The loop from its first iteration, for at most `fuel` passes. */
  function RunLoop(cfg: Config, env: Env, fuel: nat): seq<Event> {
    RunFrom(cfg, env, 1, fuel)
  }

  /** The ways a pass can go, event by event. */
  lemma IterationShape(cfg: Config, env: Env, n: nat)
    ensures var e := Iteration(cfg, env, n).events; var c := CheckAt(env, n);
      if CapReached(cfg.maxIterations, n) then e == [Exit(MaxIterationsReached)]
      else if c == Success(true) then e == [CheckedComplete(n, c), Exit(PrdComplete)]
      else if env.promptFile(n).Failure? then e == [CheckedComplete(n, c), Exit(PromptUnreadable)]
      else if cfg.dryRun then e == [CheckedComplete(n, c), DryRun(n, env.promptFile(n).value)]
      else e == [CheckedComplete(n, c),
                 Logged(Started(n)),
                 Invoked(n, ClaudeCommand(env.promptFile(n).value, cfg.yolo)),
                 Logged(ResultEntry(n, env.agent(n)))]
  {
  }

  /**
   `run_loop` as written: the counter is incremented at the top of each pass;
   then the cap check and the completion check, which break out of the loop,
   the prompt read, which exits the process, and either the dry-run display,
   which goes on to the next pass, or the logged agent run. It produces the
   trace `RunLoop` defines.
   */
  method RunLoopMethod(cfg: Config, env: Env, fuel: nat) returns (trace: seq<Event>)
    ensures trace == RunLoop(cfg, env, fuel)
  {
    trace := [];
    var iteration: nat := 0;
    while iteration < fuel
      invariant iteration <= fuel
      invariant trace + RunFrom(cfg, env, iteration + 1, fuel - iteration) == RunLoop(cfg, env, fuel)
      decreases fuel - iteration
    {
      ghost var before := trace;
      ghost var rest := RunFrom(cfg, env, iteration + 1, fuel - iteration);
      iteration := iteration + 1;
      IterationShape(cfg, env, iteration);
      var events: seq<Event>;
      var continues: bool;
      if cfg.maxIterations > 0 && iteration > cfg.maxIterations {
        events, continues := [Exit(MaxIterationsReached)], false;
      } else {
        var check := CheckPrdComplete(env.prdFile(iteration), env.parse);
        if check == Success(true) {
          events, continues := [CheckedComplete(iteration, check), Exit(PrdComplete)], false;
        } else {
          var read := env.promptFile(iteration);
          if read.Failure? {
            events, continues := [CheckedComplete(iteration, check), Exit(PromptUnreadable)], false;
          } else if cfg.dryRun {
            events, continues := [CheckedComplete(iteration, check), DryRun(iteration, read.value)], true;
          } else {
            var outcome := env.agent(iteration);
            events := [CheckedComplete(iteration, check), Logged(Started(iteration)),
                       Invoked(iteration, ClaudeCommand(read.value, cfg.yolo)),
                       Logged(ResultEntry(iteration, outcome))];
            continues := true;
          }
        }
      }
      trace := trace + events;
      LoopStep(cfg, env, RunLoop(cfg, env, fuel), before, rest, iteration, fuel - iteration, events, continues);
      if !continues {
        return;
      }
    }
  }

  /** One pass of the loop method keeps its trace a prefix of `RunLoop`'s. */
  lemma LoopStep(cfg: Config, env: Env, whole: seq<Event>, before: seq<Event>, rest: seq<Event>,
                 n: nat, remaining: nat, events: seq<Event>, continues: bool)
    requires rest == RunFrom(cfg, env, n, remaining + 1)
    requires before + rest == whole
    requires Step(events, continues) == Iteration(cfg, env, n)
    ensures !continues ==> before + events == whole
    ensures continues ==> (before + events) + RunFrom(cfg, env, n + 1, remaining) == whole
  {
    var next := RunFrom(cfg, env, n + 1, remaining);
    assert rest == if continues then events + next else events;
    if continues {
      assert (before + events) + next == before + (events + next);
    }
  }

  /** Positions of a concatenation. */
  lemma ConcatIndex(a: seq<Event>, b: seq<Event>)
    ensures forall i :: 0 <= i < |a| ==> (a + b)[i] == a[i]
    ensures forall i :: |a| <= i < |a| + |b| ==> (a + b)[i] == b[i - |a|]
  {
  }

  // ---------------------------------------------------------------------------
  // The loop stops for good

  predicate ExitLast(t: seq<Event>) {
    forall i :: 0 <= i < |t| && t[i].Exit? ==> i == |t| - 1
  }

  lemma {:induction false} ExitIsFinalFrom(cfg: Config, env: Env, n: nat, fuel: nat)
    ensures ExitLast(RunFrom(cfg, env, n, fuel))
    decreases fuel
  {
    if fuel > 0 {
      IterationShape(cfg, env, n);
      var s := Iteration(cfg, env, n);
      if s.continues {
        var a, b := s.events, RunFrom(cfg, env, n + 1, fuel - 1);
        ExitIsFinalFrom(cfg, env, n + 1, fuel - 1);
        ConcatIndex(a, b);
        assert NoExit(a);
        forall i | 0 <= i < |a + b| && (a + b)[i].Exit?
          ensures i == |a + b| - 1
        {
          assert (a + b)[i] == b[i - |a|];
        }
      }
    }
  }

  /** Nothing happens after the loop exits: an exit is the last event of the trace. */
  lemma ExitIsFinal(cfg: Config, env: Env, fuel: nat)
    ensures ExitLast(RunLoop(cfg, env, fuel))
  {
    ExitIsFinalFrom(cfg, env, 1, fuel);
  }

  /** A passing PRD ends the loop at once: the next event is the exit and nothing follows it. */
  predicate CompletionStops(t: seq<Event>) {
    forall i :: 0 <= i < |t| && t[i].CheckedComplete? && t[i].result == Success(true) ==>
      i + 2 == |t| && t[i + 1] == Exit(PrdComplete)
  }

  lemma {:induction false} CompletionStopsFrom(cfg: Config, env: Env, n: nat, fuel: nat)
    ensures CompletionStops(RunFrom(cfg, env, n, fuel))
    decreases fuel
  {
    if fuel > 0 {
      IterationShape(cfg, env, n);
      var s := Iteration(cfg, env, n);
      if s.continues {
        var a, b := s.events, RunFrom(cfg, env, n + 1, fuel - 1);
        CompletionStopsFrom(cfg, env, n + 1, fuel - 1);
        ConcatIndex(a, b);
        assert forall i :: 0 <= i < |a| ==> !(a[i].CheckedComplete? && a[i].result == Success(true));
        forall i | 0 <= i < |a + b| && (a + b)[i].CheckedComplete? && (a + b)[i].result == Success(true)
          ensures i + 2 == |a + b| && (a + b)[i + 1] == Exit(PrdComplete)
        {
          assert (a + b)[i] == b[i - |a|];
          assert (a + b)[i + 1] == b[i + 1 - |a|];
        }
      }
    }
  }

  /** Once a completion check passes, the loop exits and the agent is not run again. */
  lemma NoInvocationAfterCompletion(cfg: Config, env: Env, fuel: nat)
    ensures var t := RunLoop(cfg, env, fuel);
      && CompletionStops(t)
      && forall i, j :: 0 <= i < j < |t| && t[i].CheckedComplete? && t[i].result == Success(true) ==> !t[j].Invoked?
  {
    CompletionStopsFrom(cfg, env, 1, fuel);
  }

  // ---------------------------------------------------------------------------
  // What surrounds each agent run

  /**
   The agent run at position `i` is the third event of its iteration: the
   completion check of that same iteration came just before the start entry
   and found the PRD not complete, and the result entry for the agent's
   outcome follows. The agent got the prompt read in that iteration.
   */
  predicate InvocationFramed(cfg: Config, env: Env, t: seq<Event>, i: int)
    requires 0 <= i < |t| && t[i].Invoked?
  {
    var n := t[i].iteration;
    && 2 <= i < |t| - 1
    && t[i - 2] == CheckedComplete(n, CheckAt(env, n))
    && CheckAt(env, n) != Success(true)
    && t[i - 1] == Logged(Started(n))
    && env.promptFile(n).Success?
    && t[i].command == ClaudeCommand(env.promptFile(n).value, cfg.yolo)
    && t[i + 1] == Logged(ResultEntry(n, env.agent(n)))
  }

  predicate Framed(cfg: Config, env: Env, t: seq<Event>) {
    forall i :: 0 <= i < |t| && t[i].Invoked? ==> InvocationFramed(cfg, env, t, i)
  }

  lemma FramedAppend(cfg: Config, env: Env, a: seq<Event>, b: seq<Event>)
    requires Framed(cfg, env, a) && Framed(cfg, env, b)
    ensures Framed(cfg, env, a + b)
  {
    var t := a + b;
    ConcatIndex(a, b);
    forall i | 0 <= i < |t| && t[i].Invoked?
      ensures InvocationFramed(cfg, env, t, i)
    {
      if i < |a| {
        assert InvocationFramed(cfg, env, a, i);
      } else {
        assert InvocationFramed(cfg, env, b, i - |a|);
      }
    }
  }

  lemma IterationFramed(cfg: Config, env: Env, n: nat)
    ensures Framed(cfg, env, Iteration(cfg, env, n).events)
  {
    IterationShape(cfg, env, n);
  }

  lemma {:induction false} FramedFrom(cfg: Config, env: Env, n: nat, fuel: nat)
    ensures Framed(cfg, env, RunFrom(cfg, env, n, fuel))
    decreases fuel
  {
    if fuel > 0 {
      IterationFramed(cfg, env, n);
      var s := Iteration(cfg, env, n);
      if s.continues {
        FramedFrom(cfg, env, n + 1, fuel - 1);
        FramedAppend(cfg, env, s.events, RunFrom(cfg, env, n + 1, fuel - 1));
      }
    }
  }

  /**
   Every agent run is preceded by that iteration's completion check, which
   found the PRD not complete, and by the start entry; it is followed by the
   one result entry its outcome classifies to.
   */
  lemma CheckPrecedesInvocation(cfg: Config, env: Env, fuel: nat)
    ensures Framed(cfg, env, RunLoop(cfg, env, fuel))
  {
    FramedFrom(cfg, env, 1, fuel);
  }

  // ---------------------------------------------------------------------------
  // Dry run

  predicate Quiet(t: seq<Event>) {
    forall i :: 0 <= i < |t| ==> !t[i].Invoked? && !t[i].Logged?
  }

  lemma {:induction false} DryRunQuietFrom(cfg: Config, env: Env, n: nat, fuel: nat)
    requires cfg.dryRun
    ensures Quiet(RunFrom(cfg, env, n, fuel))
    decreases fuel
  {
    if fuel > 0 {
      IterationShape(cfg, env, n);
      var s := Iteration(cfg, env, n);
      if s.continues {
        DryRunQuietFrom(cfg, env, n + 1, fuel - 1);
        ConcatIndex(s.events, RunFrom(cfg, env, n + 1, fuel - 1));
      }
    }
  }

  /** A dry run never starts the agent and never appends to the progress log. */
  lemma DryRunNeverInvokes(cfg: Config, env: Env, fuel: nat)
    requires cfg.dryRun
    ensures Quiet(RunLoop(cfg, env, fuel))
  {
    DryRunQuietFrom(cfg, env, 1, fuel);
  }

  // ---------------------------------------------------------------------------
  // Iteration numbering and the cap

  /** The numbers `lo`, `lo + 1`, ..., `hi - 1`. */
  function Interval(lo: nat, hi: nat): (r: seq<nat>)
    ensures |r| == if lo <= hi then hi - lo else 0
    ensures forall i :: 0 <= i < |r| ==> r[i] == lo + i
    decreases hi - lo
  {
    if lo >= hi then [] else [lo] + Interval(lo + 1, hi)
  }

  /** The iteration numbers of the agent runs, in trace order. */
  function Invocations(t: seq<Event>): seq<nat> {
    if |t| == 0 then []
    else (if t[0].Invoked? then [t[0].iteration] else []) + Invocations(t[1..])
  }

  /** The iteration numbers of the completion checks, in trace order. */
  function Checks(t: seq<Event>): seq<nat> {
    if |t| == 0 then []
    else (if t[0].CheckedComplete? then [t[0].iteration] else []) + Checks(t[1..])
  }

  lemma {:induction false} InvocationsAppend(a: seq<Event>, b: seq<Event>)
    ensures Invocations(a + b) == Invocations(a) + Invocations(b)
    decreases |a|
  {
    if |a| == 0 {
      assert a + b == b;
    } else {
      assert (a + b)[0] == a[0];
      assert (a + b)[1..] == a[1..] + b;
      InvocationsAppend(a[1..], b);
      var h := if a[0].Invoked? then [a[0].iteration] else [];
      assert Invocations(a + b) == h + Invocations(a[1..] + b);
      assert Invocations(a) == h + Invocations(a[1..]);
    }
  }

  lemma {:induction false} ChecksAppend(a: seq<Event>, b: seq<Event>)
    ensures Checks(a + b) == Checks(a) + Checks(b)
    decreases |a|
  {
    if |a| == 0 {
      assert a + b == b;
    } else {
      assert (a + b)[0] == a[0];
      assert (a + b)[1..] == a[1..] + b;
      ChecksAppend(a[1..], b);
      var h := if a[0].CheckedComplete? then [a[0].iteration] else [];
      assert Checks(a + b) == h + Checks(a[1..] + b);
      assert Checks(a) == h + Checks(a[1..]);
    }
  }

  lemma InvocationsCons(e: Event, t: seq<Event>)
    ensures Invocations([e] + t) == (if e.Invoked? then [e.iteration] else []) + Invocations(t)
    ensures Checks([e] + t) == (if e.CheckedComplete? then [e.iteration] else []) + Checks(t)
  {
    assert ([e] + t)[0] == e;
    assert ([e] + t)[1..] == t;
  }

  /** What one pass adds to the agent runs and to the completion checks. */
  lemma IterationCounts(cfg: Config, env: Env, n: nat)
    ensures var s := Iteration(cfg, env, n);
      && Invocations(s.events) == (if s.continues && !cfg.dryRun then [n] else [])
      && Checks(s.events) == (if CapReached(cfg.maxIterations, n) then [] else [n])
  {
    IterationShape(cfg, env, n);
    var e := Iteration(cfg, env, n).events;
    assert Invocations([]) == [] && Checks([]) == [];
    if |e| == 1 {
      InvocationsCons(e[0], []);
      assert e == [e[0]] + [];
    } else if |e| == 2 {
      InvocationsCons(e[1], []);
      InvocationsCons(e[0], [e[1]]);
      assert e == [e[0]] + [e[1]];
      assert [e[1]] == [e[1]] + [];
    } else {
      InvocationsCons(e[3], []);
      InvocationsCons(e[2], [e[3]]);
      InvocationsCons(e[1], [e[2], e[3]]);
      InvocationsCons(e[0], [e[1], e[2], e[3]]);
      assert e == [e[0]] + [e[1], e[2], e[3]];
      assert [e[1], e[2], e[3]] == [e[1]] + [e[2], e[3]];
      assert [e[2], e[3]] == [e[2]] + [e[3]];
      assert [e[3]] == [e[3]] + [];
    }
  }

  predicate Increasing(s: seq<nat>) {
    forall i, j :: 0 <= i < j < |s| ==> s[i] < s[j]
  }

  lemma IncreasingCons(n: nat, r: seq<nat>)
    requires Increasing(r)
    requires forall k :: 0 <= k < |r| ==> n < r[k]
    ensures Increasing([n] + r)
  {
    var s := [n] + r;
    forall i, j | 0 <= i < j < |s|
      ensures s[i] < s[j]
    {
      assert s[j] == r[j - 1];
      if i > 0 {
        assert s[i] == r[i - 1];
      }
    }
  }

  /** Iteration `n` gets as far as the agent: the PRD is not complete (or unreadable) and the prompt reads. */
  predicate Stalled(env: Env, n: nat) {
    CheckAt(env, n) != Success(true) && env.promptFile(n).Success?
  }

  /** The loop goes on past iteration `n`, as `Iteration` decides it. */
  predicate Continues(cfg: Config, env: Env, n: nat) {
    !CapReached(cfg.maxIterations, n) && Stalled(env, n)
  }

  /**
   The iterations the agent runs for, read off the loop's decisions alone:
   each iteration that gets past the cap, the completion check and the prompt
   read, outside a dry run, up to the first one that does not.
   */
  function AgentRuns(cfg: Config, env: Env, n: nat, fuel: nat): seq<nat>
    decreases fuel
  {
    if fuel == 0 || !Continues(cfg, env, n) then []
    else if cfg.dryRun then AgentRuns(cfg, env, n + 1, fuel - 1)
    else [n] + AgentRuns(cfg, env, n + 1, fuel - 1)
  }

  /** The iterations whose completion check runs: each one up to the cap or the first that stops. */
  function CheckedIterations(cfg: Config, env: Env, n: nat, fuel: nat): seq<nat>
    decreases fuel
  {
    if fuel == 0 || CapReached(cfg.maxIterations, n) then []
    else [n] + (if Stalled(env, n) then CheckedIterations(cfg, env, n + 1, fuel - 1) else [])
  }

  /** A pass runs the agent at most once, for its own iteration, and only when the loop goes on from it. */
  lemma InvocationsStep(cfg: Config, env: Env, n: nat, fuel: nat)
    requires fuel > 0
    requires Invocations(RunFrom(cfg, env, n + 1, fuel - 1)) == AgentRuns(cfg, env, n + 1, fuel - 1)
    ensures Invocations(RunFrom(cfg, env, n, fuel)) == AgentRuns(cfg, env, n, fuel)
  {
    IterationCounts(cfg, env, n);
    var s := Iteration(cfg, env, n);
    var rest := RunFrom(cfg, env, n + 1, fuel - 1);
    if s.continues {
      assert Continues(cfg, env, n);
      assert RunFrom(cfg, env, n, fuel) == s.events + rest;
      InvocationsAppend(s.events, rest);
      if cfg.dryRun {
        assert Invocations(s.events) + Invocations(rest) == Invocations(rest);
      } else {
        assert Invocations(s.events) == [n];
      }
    } else {
      assert !Continues(cfg, env, n);
      assert RunFrom(cfg, env, n, fuel) == s.events;
      assert Invocations(s.events) == [];
    }
  }

  /** The agent runs of the trace are exactly the iterations `AgentRuns` names, in the same order. */
  lemma {:induction false} InvocationsAreAgentRuns(cfg: Config, env: Env, n: nat, fuel: nat)
    ensures Invocations(RunFrom(cfg, env, n, fuel)) == AgentRuns(cfg, env, n, fuel)
    decreases fuel
  {
    if fuel > 0 {
      InvocationsAreAgentRuns(cfg, env, n + 1, fuel - 1);
      InvocationsStep(cfg, env, n, fuel);
    }
  }

  /** One pass adds its own completion check, unless capped, to those of the passes after it. */
  lemma ChecksStep(cfg: Config, env: Env, n: nat, fuel: nat)
    requires fuel > 0
    requires Checks(RunFrom(cfg, env, n + 1, fuel - 1)) == CheckedIterations(cfg, env, n + 1, fuel - 1)
    ensures Checks(RunFrom(cfg, env, n, fuel)) == CheckedIterations(cfg, env, n, fuel)
  {
    IterationCounts(cfg, env, n);
    var s := Iteration(cfg, env, n);
    if s.continues {
      ChecksAppend(s.events, RunFrom(cfg, env, n + 1, fuel - 1));
    } else if !CapReached(cfg.maxIterations, n) {
      assert [n] + [] == [n];
    }
  }

  /** The completion checks of the trace are exactly the iterations `CheckedIterations` names. */
  lemma {:induction false} ChecksAreCheckedIterations(cfg: Config, env: Env, n: nat, fuel: nat)
    ensures Checks(RunFrom(cfg, env, n, fuel)) == CheckedIterations(cfg, env, n, fuel)
    decreases fuel
  {
    if fuel > 0 {
      ChecksAreCheckedIterations(cfg, env, n + 1, fuel - 1);
      ChecksStep(cfg, env, n, fuel);
    }
  }

  // ---------------------------------------------------------------------------
  // The progress log

  /** The entries appended to the progress log, in trace order. */
  function Logs(t: seq<Event>): seq<Entry> {
    if |t| == 0 then []
    else (if t[0].Logged? then [t[0].entry] else []) + Logs(t[1..])
  }

  /** The entries a list of agent runs appends: for each run, its start entry and then its classified result. */
  function RunEntries(env: Env, runs: seq<nat>): seq<Entry> {
    if |runs| == 0 then []
    else [Started(runs[0]), ResultEntry(runs[0], env.agent(runs[0]))] + RunEntries(env, runs[1..])
  }

  lemma {:induction false} LogsAppend(a: seq<Event>, b: seq<Event>)
    ensures Logs(a + b) == Logs(a) + Logs(b)
    decreases |a|
  {
    if |a| == 0 {
      assert a + b == b;
    } else {
      assert (a + b)[0] == a[0];
      assert (a + b)[1..] == a[1..] + b;
      LogsAppend(a[1..], b);
      var h := if a[0].Logged? then [a[0].entry] else [];
      assert Logs(a + b) == h + Logs(a[1..] + b);
      assert Logs(a) == h + Logs(a[1..]);
    }
  }

  lemma LogsCons(e: Event, t: seq<Event>)
    ensures Logs([e] + t) == (if e.Logged? then [e.entry] else []) + Logs(t)
  {
    assert ([e] + t)[0] == e;
    assert ([e] + t)[1..] == t;
  }

  /** A short run of events with no log append among them appends nothing. */
  lemma LogsQuiet(t: seq<Event>)
    requires |t| <= 2 && forall j :: 0 <= j < |t| ==> !t[j].Logged?
    ensures Logs(t) == []
  {
    if |t| > 0 {
      assert t[1..] == [] || t[1..] == [t[1]];
      if |t| == 2 {
        assert t[1..][1..] == [];
      }
    }
  }

  /** Check, start entry, agent run, result entry: the two entries in order. */
  lemma LogsOfRun(a: Event, b: Event, c: Event, d: Event)
    requires !a.Logged? && b.Logged? && !c.Logged? && d.Logged?
    ensures Logs([a, b, c, d]) == [b.entry, d.entry]
  {
    assert Logs([]) == [];
    LogsCons(d, []);
    LogsCons(c, [d]);
    LogsCons(b, [c, d]);
    LogsCons(a, [b, c, d]);
    assert [a, b, c, d] == [a] + [b, c, d];
    assert [b, c, d] == [b] + [c, d];
    assert [c, d] == [c] + [d];
    assert [d] == [d] + [];
  }

  /** A pass appends the start and result entries when it runs the agent, and nothing otherwise. */
  lemma IterationLogs(cfg: Config, env: Env, n: nat)
    ensures var s := Iteration(cfg, env, n);
      Logs(s.events) == (if s.continues && !cfg.dryRun then [Started(n), ResultEntry(n, env.agent(n))] else [])
  {
    IterationShape(cfg, env, n);
    var s := Iteration(cfg, env, n);
    var e := s.events;
    if s.continues && !cfg.dryRun {
      assert e == [e[0], e[1], e[2], e[3]];
      LogsOfRun(e[0], e[1], e[2], e[3]);
    } else {
      LogsQuiet(e);
    }
  }

  lemma LogsStep(cfg: Config, env: Env, n: nat, fuel: nat)
    requires fuel > 0
    requires Logs(RunFrom(cfg, env, n + 1, fuel - 1)) == RunEntries(env, AgentRuns(cfg, env, n + 1, fuel - 1))
    ensures Logs(RunFrom(cfg, env, n, fuel)) == RunEntries(env, AgentRuns(cfg, env, n, fuel))
  {
    IterationLogs(cfg, env, n);
    var s := Iteration(cfg, env, n);
    var rest := RunFrom(cfg, env, n + 1, fuel - 1);
    var runs := AgentRuns(cfg, env, n + 1, fuel - 1);
    if s.continues {
      assert Continues(cfg, env, n);
      assert RunFrom(cfg, env, n, fuel) == s.events + rest;
      LogsAppend(s.events, rest);
      if cfg.dryRun {
        assert Logs(s.events) + Logs(rest) == Logs(rest);
      } else {
        assert AgentRuns(cfg, env, n, fuel) == [n] + runs;
        assert ([n] + runs)[1..] == runs;
      }
    } else {
      assert !Continues(cfg, env, n);
      assert RunFrom(cfg, env, n, fuel) == s.events;
    }
  }

  lemma {:induction false} LogsAreRunEntries(cfg: Config, env: Env, n: nat, fuel: nat)
    ensures Logs(RunFrom(cfg, env, n, fuel)) == RunEntries(env, AgentRuns(cfg, env, n, fuel))
    decreases fuel
  {
    if fuel > 0 {
      LogsAreRunEntries(cfg, env, n + 1, fuel - 1);
      LogsStep(cfg, env, n, fuel);
    }
  }

  /**
   The progress log gets exactly two entries per agent run, in run order:
   "Starting iteration n", then the one result entry the agent's outcome
   classifies to. Nothing else is ever appended.
   */
  lemma TwoEntriesPerRun(cfg: Config, env: Env, fuel: nat)
    ensures Logs(RunLoop(cfg, env, fuel)) == RunEntries(env, AgentRuns(cfg, env, 1, fuel))
    ensures Logs(RunLoop(cfg, env, fuel)) == RunEntries(env, Invocations(RunLoop(cfg, env, fuel)))
  {
    LogsAreRunEntries(cfg, env, 1, fuel);
    InvocationsAreAgentRuns(cfg, env, 1, fuel);
  }

  // ---------------------------------------------------------------------------
  // Run numbering and the cap

  /** Prepending a pass's run, if any, keeps the agent runs increasing and at or above the pass's number. */
  lemma IncreasingStep(n: nat, r: seq<nat>, inv: seq<nat>, continues: bool, dryRun: bool)
    requires Increasing(r) && forall k :: 0 <= k < |r| ==> n + 1 <= r[k]
    requires inv == if !continues then [] else if dryRun then r else [n] + r
    ensures Increasing(inv) && forall k :: 0 <= k < |inv| ==> n <= inv[k]
  {
    if continues && !dryRun {
      IncreasingCons(n, r);
    }
  }

  lemma {:induction false} AgentRunsIncreasing(cfg: Config, env: Env, n: nat, fuel: nat)
    ensures var inv := AgentRuns(cfg, env, n, fuel);
      && Increasing(inv)
      && (forall k :: 0 <= k < |inv| ==> n <= inv[k])
    decreases fuel
  {
    if fuel > 0 {
      AgentRunsIncreasing(cfg, env, n + 1, fuel - 1);
      IncreasingStep(n, AgentRuns(cfg, env, n + 1, fuel - 1), AgentRuns(cfg, env, n, fuel),
                     Continues(cfg, env, n), cfg.dryRun);
    }
  }

  /** Prepending the run of a pass that was not capped keeps the agent runs within the cap `m`. */
  lemma CappedStep(m: nat, n: nat, r: seq<nat>, inv: seq<nat>, continues: bool, dryRun: bool)
    requires continues ==> n <= m
    requires forall k :: 0 <= k < |r| ==> r[k] <= m
    requires n + 1 <= m + 1 ==> |r| <= m + 1 - (n + 1)
    requires inv == if !continues then [] else if dryRun then r else [n] + r
    ensures forall k :: 0 <= k < |inv| ==> inv[k] <= m
    ensures n <= m + 1 ==> |inv| <= m + 1 - n
  {
    if continues && !dryRun {
      assert forall k :: 1 <= k < |inv| ==> inv[k] == r[k - 1];
    }
  }

  lemma {:induction false} AgentRunsCapped(cfg: Config, env: Env, n: nat, fuel: nat)
    requires cfg.maxIterations > 0
    ensures var inv := AgentRuns(cfg, env, n, fuel);
      && (forall k :: 0 <= k < |inv| ==> inv[k] <= cfg.maxIterations)
      && (n <= cfg.maxIterations + 1 ==> |inv| <= cfg.maxIterations + 1 - n)
    decreases fuel
  {
    if fuel > 0 {
      AgentRunsCapped(cfg, env, n + 1, fuel - 1);
      CappedStep(cfg.maxIterations, n, AgentRuns(cfg, env, n + 1, fuel - 1), AgentRuns(cfg, env, n, fuel),
                 Continues(cfg, env, n), cfg.dryRun);
    }
  }

  /**
   Agent runs are numbered in increasing order from 1 and, with a positive
   cap `M`, never beyond `M`: there are at most `M` of them.
   */
  lemma InvocationsWithinCap(cfg: Config, env: Env, fuel: nat)
    ensures var inv := Invocations(RunLoop(cfg, env, fuel));
      && Increasing(inv)
      && (forall k :: 0 <= k < |inv| ==> 1 <= inv[k])
      && (cfg.maxIterations > 0 ==> forall k :: 0 <= k < |inv| ==> inv[k] <= cfg.maxIterations)
      && (cfg.maxIterations > 0 ==> |inv| <= cfg.maxIterations)
  {
    InvocationsAreAgentRuns(cfg, env, 1, fuel);
    AgentRunsIncreasing(cfg, env, 1, fuel);
    if cfg.maxIterations > 0 {
      AgentRunsCapped(cfg, env, 1, fuel);
    }
  }

  lemma {:induction false} CheckedIterationsConsecutive(cfg: Config, env: Env, n: nat, fuel: nat)
    ensures var c := CheckedIterations(cfg, env, n, fuel);
      c == Interval(n, n + |c|)
    decreases fuel
  {
    if fuel > 0 && !CapReached(cfg.maxIterations, n) {
      var c := CheckedIterations(cfg, env, n + 1, fuel - 1);
      CheckedIterationsConsecutive(cfg, env, n + 1, fuel - 1);
      var tail := if Stalled(env, n) then c else [];
      assert tail == Interval(n + 1, n + 1 + |tail|);
      assert Interval(n, n + 1 + |tail|) == [n] + Interval(n + 1, n + 1 + |tail|);
    }
  }

  lemma {:induction false} CheckedIterationsCapped(cfg: Config, env: Env, n: nat, fuel: nat)
    requires cfg.maxIterations > 0
    ensures forall k :: 0 <= k < |CheckedIterations(cfg, env, n, fuel)| ==>
      CheckedIterations(cfg, env, n, fuel)[k] <= cfg.maxIterations
    decreases fuel
  {
    if fuel > 0 && !CapReached(cfg.maxIterations, n) {
      var r := CheckedIterations(cfg, env, n + 1, fuel - 1);
      CheckedIterationsCapped(cfg, env, n + 1, fuel - 1);
      var tail := if Stalled(env, n) then r else [];
      var c := CheckedIterations(cfg, env, n, fuel);
      assert c == [n] + tail;
      forall k | 0 <= k < |c|
        ensures c[k] <= cfg.maxIterations
      {
        if k > 0 {
          assert c[k] == tail[k - 1];
        }
      }
    }
  }

  /**
   The iteration counter starts at 1 and goes up by one per pass: the
   completion checks are for iterations 1, 2, 3, ... with none skipped or
   repeated, and with a positive cap `M` none is for an iteration beyond `M`.
   */
  lemma ChecksAreConsecutive(cfg: Config, env: Env, fuel: nat)
    ensures var c := Checks(RunLoop(cfg, env, fuel));
      c == Interval(1, 1 + |c|)
    ensures var c := Checks(RunLoop(cfg, env, fuel));
      cfg.maxIterations > 0 ==> forall k :: 0 <= k < |c| ==> c[k] <= cfg.maxIterations
  {
    ChecksAreCheckedIterations(cfg, env, 1, fuel);
    CheckedIterationsConsecutive(cfg, env, 1, fuel);
    if cfg.maxIterations > 0 {
      CheckedIterationsCapped(cfg, env, 1, fuel);
    }
  }

  lemma {:induction false} AgentRunsUpToCap(cfg: Config, env: Env, n: nat, fuel: nat)
    requires cfg.maxIterations > 0 && !cfg.dryRun
    requires n <= cfg.maxIterations + 1
    requires forall k :: n <= k <= cfg.maxIterations ==> Stalled(env, k)
    requires fuel >= cfg.maxIterations + 2 - n
    ensures AgentRuns(cfg, env, n, fuel) == Interval(n, cfg.maxIterations + 1)
    decreases fuel
  {
    if n <= cfg.maxIterations {
      assert Stalled(env, n);
      AgentRunsUpToCap(cfg, env, n + 1, fuel - 1);
      assert Interval(n, cfg.maxIterations + 1) == [n] + Interval(n + 1, cfg.maxIterations + 1);
    }
  }

  /** A pass that goes on keeps the trace's last event: the last event of the passes after it. */
  lemma LastAfterPass(cfg: Config, env: Env, n: nat, fuel: nat)
    requires fuel > 0 && Iteration(cfg, env, n).continues
    requires |RunFrom(cfg, env, n + 1, fuel - 1)| > 0
    ensures var t, r := RunFrom(cfg, env, n, fuel), RunFrom(cfg, env, n + 1, fuel - 1);
      |t| > 0 && t[|t| - 1] == r[|r| - 1]
  {
    var a, b := Iteration(cfg, env, n).events, RunFrom(cfg, env, n + 1, fuel - 1);
    assert RunFrom(cfg, env, n, fuel) == a + b;
    assert (a + b)[|a + b| - 1] == b[|b| - 1];
  }

  lemma {:induction false} CapExitFrom(cfg: Config, env: Env, n: nat, fuel: nat)
    requires cfg.maxIterations > 0
    requires n <= cfg.maxIterations + 1
    requires forall k :: n <= k <= cfg.maxIterations ==> Stalled(env, k)
    requires fuel >= cfg.maxIterations + 2 - n
    ensures var t := RunFrom(cfg, env, n, fuel);
      |t| > 0 && t[|t| - 1] == Exit(MaxIterationsReached)
    decreases fuel
  {
    if n <= cfg.maxIterations {
      assert Stalled(env, n);
      CapExitFrom(cfg, env, n + 1, fuel - 1);
      LastAfterPass(cfg, env, n, fuel);
    } else {
      assert RunFrom(cfg, env, n, fuel) == [Exit(MaxIterationsReached)];
    }
  }

  /**
   With a positive cap `M`, a PRD that never completes, a readable prompt and
   no dry run, the agent runs exactly `M` times, for iterations 1 to `M` in
   order, and then the loop stops at the cap.
   */
  lemma ExactlyCapInvocations(cfg: Config, env: Env, fuel: nat)
    requires cfg.maxIterations > 0 && !cfg.dryRun
    requires forall k :: 1 <= k <= cfg.maxIterations ==> Stalled(env, k)
    requires fuel > cfg.maxIterations
    ensures var t := RunLoop(cfg, env, fuel);
      && Invocations(t) == Interval(1, cfg.maxIterations + 1)
      && |Invocations(t)| == cfg.maxIterations
      && |t| > 0 && t[|t| - 1] == Exit(MaxIterationsReached)
  {
    InvocationsAreAgentRuns(cfg, env, 1, fuel);
    AgentRunsUpToCap(cfg, env, 1, fuel);
    CapExitFrom(cfg, env, 1, fuel);
  }

  lemma {:induction false} UncappedFrom(cfg: Config, env: Env, n: nat, fuel: nat)
    requires cfg.maxIterations == 0
    ensures forall i :: 0 <= i < |RunFrom(cfg, env, n, fuel)| ==>
      RunFrom(cfg, env, n, fuel)[i] != Exit(MaxIterationsReached)
    decreases fuel
  {
    if fuel > 0 {
      IterationShape(cfg, env, n);
      var s := Iteration(cfg, env, n);
      if s.continues {
        UncappedFrom(cfg, env, n + 1, fuel - 1);
        ConcatIndex(s.events, RunFrom(cfg, env, n + 1, fuel - 1));
      }
    }
  }

  lemma {:induction false} AgentRunsUncapped(cfg: Config, env: Env, n: nat, fuel: nat)
    requires cfg.maxIterations == 0 && !cfg.dryRun
    requires forall k :: n <= k < n + fuel ==> Stalled(env, k)
    ensures AgentRuns(cfg, env, n, fuel) == Interval(n, n + fuel)
    decreases fuel
  {
    if fuel > 0 {
      assert Stalled(env, n);
      AgentRunsUncapped(cfg, env, n + 1, fuel - 1);
      assert Interval(n, n + fuel) == [n] + Interval(n + 1, n + fuel);
    }
  }

  lemma {:induction false} UncappedNoExitFrom(cfg: Config, env: Env, n: nat, fuel: nat)
    requires cfg.maxIterations == 0
    requires forall k :: n <= k < n + fuel ==> Stalled(env, k)
    ensures NoExit(RunFrom(cfg, env, n, fuel))
    decreases fuel
  {
    if fuel > 0 {
      assert Stalled(env, n);
      IterationShape(cfg, env, n);
      UncappedNoExitFrom(cfg, env, n + 1, fuel - 1);
      ConcatIndex(Iteration(cfg, env, n).events, RunFrom(cfg, env, n + 1, fuel - 1));
    }
  }

  /**
   With no cap the loop never stops for the iteration count. If the PRD never
   completes and the prompt always reads, every pass runs the agent once,
   numbered 1, 2, ..., and the loop has not exited.
   */
  lemma UnlimitedNeverCaps(cfg: Config, env: Env, fuel: nat)
    requires cfg.maxIterations == 0
    ensures var t := RunLoop(cfg, env, fuel);
      forall i :: 0 <= i < |t| ==> t[i] != Exit(MaxIterationsReached)
    ensures !cfg.dryRun && (forall k :: 1 <= k <= fuel ==> Stalled(env, k)) ==>
      && Invocations(RunLoop(cfg, env, fuel)) == Interval(1, 1 + fuel)
      && NoExit(RunLoop(cfg, env, fuel))
  {
    UncappedFrom(cfg, env, 1, fuel);
    if !cfg.dryRun && (forall k :: 1 <= k <= fuel ==> Stalled(env, k)) {
      InvocationsAreAgentRuns(cfg, env, 1, fuel);
      AgentRunsUncapped(cfg, env, 1, fuel);
      UncappedNoExitFrom(cfg, env, 1, fuel);
    }
  }

  // ---------------------------------------------------------------------------
  // An unreadable prompt is fatal

  /** The iteration an event belongs to; an exit belongs to none. */
  function Tag(e: Event): nat
    requires !e.Exit?
  {
    match e
    case CheckedComplete(n, _) => n
    case DryRun(n, _) => n
    case Logged(entry) => entry.iteration
    case Invoked(n, _) => n
  }

  predicate TaggedFrom(t: seq<Event>, n: nat) {
    forall j :: 0 <= j < |t| && !t[j].Exit? ==> n <= Tag(t[j])
  }

  /** No log append and no agent run belongs to iteration `n` or later. */
  predicate AgentIdleFrom(t: seq<Event>, n: nat) {
    forall j :: 0 <= j < |t| && (t[j].Invoked? || t[j].Logged?) ==> Tag(t[j]) < n
  }

  /**
   The exit at position `i` is for an unreadable prompt: it is the last
   event, right after the completion check of an iteration whose prompt read
   failed, and nothing was logged or run for that iteration.
   */
  predicate FatalPromptAt(env: Env, t: seq<Event>, i: int)
    requires 0 <= i < |t|
  {
    && 1 <= i == |t| - 1
    && t[i - 1].CheckedComplete?
    && env.promptFile(t[i - 1].iteration).Failure?
    && AgentIdleFrom(t, t[i - 1].iteration)
  }

  lemma {:induction false} TaggedFromRun(cfg: Config, env: Env, n: nat, fuel: nat)
    ensures TaggedFrom(RunFrom(cfg, env, n, fuel), n)
    decreases fuel
  {
    if fuel > 0 {
      IterationShape(cfg, env, n);
      var s := Iteration(cfg, env, n);
      if s.continues {
        TaggedFromRun(cfg, env, n + 1, fuel - 1);
        ConcatIndex(s.events, RunFrom(cfg, env, n + 1, fuel - 1));
      }
    }
  }

  /** Every event but the exit belongs to an iteration no later than `m`. */
  predicate TaggedUpTo(t: seq<Event>, m: nat) {
    forall j :: 0 <= j < |t| && !t[j].Exit? ==> Tag(t[j]) <= m
  }

  lemma TaggedUpToAppend(a: seq<Event>, b: seq<Event>, m: nat)
    requires TaggedUpTo(a, m) && TaggedUpTo(b, m)
    ensures TaggedUpTo(a + b, m)
  {
    ConcatIndex(a, b);
  }

  /** With a positive cap, a pass does nothing of its own past the cap: beyond it, only the cap exit. */
  lemma IterationUpToCap(cfg: Config, env: Env, n: nat)
    requires cfg.maxIterations > 0
    ensures TaggedUpTo(Iteration(cfg, env, n).events, cfg.maxIterations)
  {
    IterationShape(cfg, env, n);
  }

  lemma TaggedUpToStep(cfg: Config, env: Env, n: nat, fuel: nat)
    requires cfg.maxIterations > 0 && fuel > 0
    requires TaggedUpTo(RunFrom(cfg, env, n + 1, fuel - 1), cfg.maxIterations)
    ensures TaggedUpTo(RunFrom(cfg, env, n, fuel), cfg.maxIterations)
  {
    IterationUpToCap(cfg, env, n);
    var s := Iteration(cfg, env, n);
    var rest := RunFrom(cfg, env, n + 1, fuel - 1);
    if s.continues {
      assert RunFrom(cfg, env, n, fuel) == s.events + rest;
      TaggedUpToAppend(s.events, rest, cfg.maxIterations);
    } else {
      assert RunFrom(cfg, env, n, fuel) == s.events;
    }
  }

  lemma {:induction false} TaggedUpToFrom(cfg: Config, env: Env, n: nat, fuel: nat)
    requires cfg.maxIterations > 0
    ensures TaggedUpTo(RunFrom(cfg, env, n, fuel), cfg.maxIterations)
    decreases fuel
  {
    if fuel > 0 {
      TaggedUpToFrom(cfg, env, n + 1, fuel - 1);
      TaggedUpToStep(cfg, env, n, fuel);
    }
  }

  /**
   With a positive cap `M`, the loop stops before doing anything in iteration
   `M + 1`: no completion check, dry-run display, log entry or agent run
   belongs to an iteration beyond `M`; only the cap exit can follow.
   */
  lemma NothingPastCap(cfg: Config, env: Env, fuel: nat)
    ensures cfg.maxIterations > 0 ==> TaggedUpTo(RunLoop(cfg, env, fuel), cfg.maxIterations)
  {
    if cfg.maxIterations > 0 {
      TaggedUpToFrom(cfg, env, 1, fuel);
    }
  }

  predicate PromptExitsFatal(env: Env, t: seq<Event>) {
    forall i :: 0 <= i < |t| && t[i] == Exit(PromptUnreadable) ==> FatalPromptAt(env, t, i)
  }

  lemma AgentIdleAppend(a: seq<Event>, b: seq<Event>, m: nat)
    requires forall j :: 0 <= j < |a| && !a[j].Exit? ==> Tag(a[j]) < m
    requires AgentIdleFrom(b, m)
    ensures AgentIdleFrom(a + b, m)
  {
    ConcatIndex(a, b);
  }

  /** The events of a pass that goes on all belong to that pass's iteration. */
  lemma IterationTagged(cfg: Config, env: Env, n: nat)
    requires Iteration(cfg, env, n).continues
    ensures var a := Iteration(cfg, env, n).events;
      forall j :: 0 <= j < |a| ==> !a[j].Exit? && Tag(a[j]) == n
  {
    IterationShape(cfg, env, n);
  }

  /**
   Events of iteration `n` with no exit among them, put in front of a trace
   whose events all belong to later iterations, keep every unreadable-prompt
   exit of that trace fatal.
   */
  lemma PromptExitsFatalAppend(env: Env, a: seq<Event>, b: seq<Event>, n: nat)
    requires forall j :: 0 <= j < |a| ==> !a[j].Exit? && Tag(a[j]) == n
    requires TaggedFrom(b, n + 1)
    requires PromptExitsFatal(env, b)
    ensures PromptExitsFatal(env, a + b)
  {
    var t := a + b;
    ConcatIndex(a, b);
    forall i | 0 <= i < |t| && t[i] == Exit(PromptUnreadable)
      ensures FatalPromptAt(env, t, i)
    {
      assert i >= |a| by {
        assert forall j :: 0 <= j < |a| ==> !t[j].Exit?;
      }
      var i' := i - |a|;
      assert b[i'] == t[i];
      assert FatalPromptAt(env, b, i');
      assert t[i - 1] == b[i' - 1];
      var m := b[i' - 1].iteration;
      assert n + 1 <= m by {
        assert !b[i' - 1].Exit?;
      }
      AgentIdleAppend(a, b, m);
    }
  }

  /** Within one pass, an unreadable-prompt exit comes right after the check and nothing is logged or run. */
  lemma IterationFatal(cfg: Config, env: Env, n: nat)
    ensures PromptExitsFatal(env, Iteration(cfg, env, n).events)
  {
    IterationShape(cfg, env, n);
  }

  lemma FatalPromptStep(cfg: Config, env: Env, n: nat, fuel: nat)
    requires fuel > 0
    requires PromptExitsFatal(env, RunFrom(cfg, env, n + 1, fuel - 1))
    ensures PromptExitsFatal(env, RunFrom(cfg, env, n, fuel))
  {
    var s := Iteration(cfg, env, n);
    var rest := RunFrom(cfg, env, n + 1, fuel - 1);
    if s.continues {
      assert RunFrom(cfg, env, n, fuel) == s.events + rest;
      TaggedFromRun(cfg, env, n + 1, fuel - 1);
      IterationTagged(cfg, env, n);
      PromptExitsFatalAppend(env, s.events, rest, n);
    } else {
      assert RunFrom(cfg, env, n, fuel) == s.events;
      IterationFatal(cfg, env, n);
    }
  }

  lemma {:induction false} FatalPromptFrom(cfg: Config, env: Env, n: nat, fuel: nat)
    ensures PromptExitsFatal(env, RunFrom(cfg, env, n, fuel))
    decreases fuel
  {
    if fuel > 0 {
      FatalPromptFrom(cfg, env, n + 1, fuel - 1);
      FatalPromptStep(cfg, env, n, fuel);
    }
  }

  /**
   An unreadable-prompt exit comes in the iteration where the read failed,
   right after its completion check and before anything is logged or run for it.
   */
  lemma PromptFailureIsFatal(cfg: Config, env: Env, fuel: nat)
    ensures PromptExitsFatal(env, RunLoop(cfg, env, fuel))
  {
    FatalPromptFrom(cfg, env, 1, fuel);
  }

  /** A completion check that found the PRD not complete, in an iteration whose prompt cannot be read. */
  predicate PromptFailed(env: Env, e: Event) {
    e.CheckedComplete? && e.result != Success(true) && env.promptFile(e.iteration).Failure?
  }

  /** Every such check is followed at once by the unreadable-prompt exit, and that exit ends the trace. */
  predicate PromptFailureStops(env: Env, t: seq<Event>) {
    forall i :: 0 <= i < |t| && PromptFailed(env, t[i]) ==> i + 2 == |t| && t[i + 1] == Exit(PromptUnreadable)
  }

  lemma PromptFailureStopsAppend(env: Env, a: seq<Event>, b: seq<Event>)
    requires forall j :: 0 <= j < |a| ==> !PromptFailed(env, a[j])
    requires PromptFailureStops(env, b)
    ensures PromptFailureStops(env, a + b)
  {
    var t := a + b;
    ConcatIndex(a, b);
    forall i | 0 <= i < |t| && PromptFailed(env, t[i])
      ensures i + 2 == |t| && t[i + 1] == Exit(PromptUnreadable)
    {
      assert i >= |a|;
      assert t[i] == b[i - |a|];
      assert t[i + 1] == b[i + 1 - |a|];
    }
  }

  /** Within one pass, a check followed by a failed prompt read is followed by the exit and nothing else. */
  lemma IterationPromptFailure(cfg: Config, env: Env, n: nat)
    ensures PromptFailureStops(env, Iteration(cfg, env, n).events)
    ensures Iteration(cfg, env, n).continues ==>
      forall j :: 0 <= j < |Iteration(cfg, env, n).events| ==> !PromptFailed(env, Iteration(cfg, env, n).events[j])
  {
    IterationShape(cfg, env, n);
  }

  lemma PromptFailureStopsStep(cfg: Config, env: Env, n: nat, fuel: nat)
    requires fuel > 0
    requires PromptFailureStops(env, RunFrom(cfg, env, n + 1, fuel - 1))
    ensures PromptFailureStops(env, RunFrom(cfg, env, n, fuel))
  {
    IterationPromptFailure(cfg, env, n);
    var s := Iteration(cfg, env, n);
    var rest := RunFrom(cfg, env, n + 1, fuel - 1);
    if s.continues {
      assert RunFrom(cfg, env, n, fuel) == s.events + rest;
      PromptFailureStopsAppend(env, s.events, rest);
    } else {
      assert RunFrom(cfg, env, n, fuel) == s.events;
    }
  }

  lemma {:induction false} PromptFailureStopsFrom(cfg: Config, env: Env, n: nat, fuel: nat)
    ensures PromptFailureStops(env, RunFrom(cfg, env, n, fuel))
    decreases fuel
  {
    if fuel > 0 {
      PromptFailureStopsFrom(cfg, env, n + 1, fuel - 1);
      PromptFailureStopsStep(cfg, env, n, fuel);
    }
  }

  /**
   The process exit status: when the loop exits, the status is 1 exactly when
   some iteration found the PRD not complete and then could not read the
   prompt, and 0 otherwise. Such an iteration always ends the loop: its check
   is followed at once by the unreadable-prompt exit, the last event.
   */
  lemma ExitStatus(cfg: Config, env: Env, fuel: nat)
    ensures var t := RunLoop(cfg, env, fuel);
      |t| > 0 && t[|t| - 1].Exit? ==>
        (ExitCode(t[|t| - 1].reason) == 1 <==> exists i :: 0 <= i < |t| && PromptFailed(env, t[i]))
    ensures PromptFailureStops(env, RunLoop(cfg, env, fuel))
  {
    var t := RunLoop(cfg, env, fuel);
    PromptFailureStopsFrom(cfg, env, 1, fuel);
    if |t| > 0 && t[|t| - 1] == Exit(PromptUnreadable) {
      FatalPromptFrom(cfg, env, 1, fuel);
      CompletionStopsFrom(cfg, env, 1, fuel);
      assert FatalPromptAt(env, t, |t| - 1);
      assert PromptFailed(env, t[|t| - 2]);
    }
  }

  /**
   A PRD that cannot be read or parsed is a warning, not a stop: the
   iteration goes on to read the prompt and, outside a dry run, to run the agent.
   */
  lemma UnreadablePrdContinues(cfg: Config, env: Env, n: nat)
    requires !CapReached(cfg.maxIterations, n)
    requires CheckAt(env, n).Failure?
    requires env.promptFile(n).Success?
    ensures Iteration(cfg, env, n).continues
    ensures Iteration(cfg, env, n).events[0] == CheckedComplete(n, CheckAt(env, n))
    ensures !cfg.dryRun ==> Invocations(Iteration(cfg, env, n).events) == [n]
  {
    IterationShape(cfg, env, n);
    IterationCounts(cfg, env, n);
  }
}

=== FILE: scaffold.dfy ===
/**
 Project scaffolding (`init_project`, `get_templates`): make the commands
 directory, then write each template file only where nothing exists at its
 path, reporting "create" or "skip" per path. The working directory is a
 value: a set of directory paths and a map from file paths to contents.
 */
module Scaffold {
  import opened Wrappers

  datatype FileSystem = FileSystem(dirs: set<string>, files: map<string, string>)

  /** `Path::exists`: a file or a directory is at `p`. */
  predicate Exists(fs: FileSystem, p: string) {
    p in fs.dirs || p in fs.files
  }

  datatype Template = Template(path: string, content: string)

  datatype Report = Create(path: string) | Skip(path: string)

  const ClaudeDir: string := ".claude"
  const CommandsDir: string := ".claude/commands"

  /** Where the loop reads its prompt and its PRD unless told otherwise. */
  const DefaultPromptPath: string := ".claude/commands/ralph.md"
  const DefaultPrdPath: string := "PRD.json"

  /**
   The template files, in the order they are written. The contents stand for
   the files embedded at build time and are named after them.
   */
  function GetTemplates(): seq<Template> {
    [ Template("CLAUDE.md", "templates/CLAUDE.md"),
      Template("PRD.json", "templates/PRD.json"),
      Template("progress.md", "templates/progress.md"),
      Template("guardrails.md", "templates/guardrails.md"),
      Template(".claude/settings.json", "templates/settings.json"),
      Template(".claude/commands/interview.md", "templates/commands/interview.md"),
      Template(".claude/commands/plan.md", "templates/commands/plan.md"),
      Template(".claude/commands/build.md", "templates/commands/build.md"),
      Template(".claude/commands/ralph.md", "templates/commands/ralph.md") ]
  }

  predicate DistinctPaths(ts: seq<Template>) {
    forall i, j :: 0 <= i < j < |ts| ==> ts[i].path != ts[j].path
  }

  /** Every path some template writes to. */
  function Paths(ts: seq<Template>): set<string> {
    set i | 0 <= i < |ts| :: ts[i].path
  }

  /**
   The template list names nine distinct paths, among them the loop's
   default prompt and PRD, and none of them is one of the directories made.
   */
  lemma TemplatesWellFormed()
    ensures |GetTemplates()| == 9
    ensures DistinctPaths(GetTemplates())
    ensures DefaultPromptPath in Paths(GetTemplates())
    ensures DefaultPrdPath in Paths(GetTemplates())
    ensures ClaudeDir !in Paths(GetTemplates()) && CommandsDir !in Paths(GetTemplates())
  {
    var ts := GetTemplates();
    assert ts[8].path == DefaultPromptPath;
    assert ts[1].path == DefaultPrdPath;
  }

  /**
   `create_dir_all(".claude/commands")`: it fails, which aborts the process,
   when a file stands where one of the directories belongs; otherwise both
   directories exist afterwards and no file changes.
   */
  function CreateCommandsDir(fs: FileSystem): (r: Result<FileSystem, string>)
    ensures r.Failure? <==> ClaudeDir in fs.files || CommandsDir in fs.files
    ensures r.Success? ==> r.value.files == fs.files
    ensures r.Success? ==> r.value.dirs == fs.dirs + {ClaudeDir, CommandsDir}
  {
    if ClaudeDir in fs.files || CommandsDir in fs.files then Failure("Failed to create .claude/commands")
    else Success(FileSystem(fs.dirs + {ClaudeDir, CommandsDir}, fs.files))
  }

  /** The file system after one template: unchanged if its path exists, otherwise with the template written. */
  function Next(fs: FileSystem, t: Template): FileSystem {
    if Exists(fs, t.path) then fs else FileSystem(fs.dirs, fs.files[t.path := t.content])
  }

  /** The report for one template: "skip" if its path exists, otherwise "create". */
  function ReportFor(fs: FileSystem, t: Template): Report {
    if Exists(fs, t.path) then Skip(t.path) else Create(t.path)
  }

  /** The template loop: skip a path that exists, otherwise write the template there. */
  function WriteTemplates(fs: FileSystem, ts: seq<Template>): (FileSystem, seq<Report>)
    decreases |ts|
  {
    if |ts| == 0 then (fs, [])
    else
      var rest := WriteTemplates(Next(fs, ts[0]), ts[1..]);
      (rest.0, [ReportFor(fs, ts[0])] + rest.1)
  }

  /** `init_project` over a template list: the directories, then the templates; the abort if the directories cannot be made. */
  function InitWith(fs: FileSystem, ts: seq<Template>): (r: Result<(FileSystem, seq<Report>), string>)
    ensures r.Failure? <==> ClaudeDir in fs.files || CommandsDir in fs.files
  {
    match CreateCommandsDir(fs)
    case Failure(e) => Failure(e)
    case Success(fs') => Success(WriteTemplates(fs', ts))
  }

  /** `init_project`: the scaffold with the embedded templates. */
  function InitProject(fs: FileSystem): (r: Result<(FileSystem, seq<Report>), string>)
    ensures r.Failure? <==> ClaudeDir in fs.files || CommandsDir in fs.files
  {
    InitWith(fs, GetTemplates())
  }

  lemma PathsCons(ts: seq<Template>)
    requires |ts| > 0
    ensures Paths(ts) == {ts[0].path} + Paths(ts[1..])
  {
    forall p | p in Paths(ts) ensures p in {ts[0].path} + Paths(ts[1..]) {
      var i :| 0 <= i < |ts| && ts[i].path == p;
      if i > 0 {
        assert ts[1..][i - 1] == ts[i];
      }
    }
    forall p | p in Paths(ts[1..]) ensures p in Paths(ts) {
      var i :| 0 <= i < |ts[1..]| && ts[1..][i].path == p;
      assert ts[i + 1] == ts[1..][i];
    }
  }

  /**
   The template loop keeps every directory and every existing file with its
   contents, and the only new files are template paths where nothing was.
   */
  lemma {:induction false} WriteTemplatesKeeps(fs: FileSystem, ts: seq<Template>)
    ensures var fs' := WriteTemplates(fs, ts).0;
      && fs'.dirs == fs.dirs
      && (forall p :: p in fs.files ==> p in fs'.files && fs'.files[p] == fs.files[p])
      && (forall p :: p in fs'.files ==> p in fs.files || (p in Paths(ts) && p !in fs.dirs))
    decreases |ts|
  {
    if |ts| > 0 {
      PathsCons(ts);
      WriteTemplatesKeeps(Next(fs, ts[0]), ts[1..]);
    }
  }

  /** After the template loop every template path exists, and there is one report per template, in order. */
  lemma {:induction false} WriteTemplatesCovers(fs: FileSystem, ts: seq<Template>)
    ensures var (fs', rs) := WriteTemplates(fs, ts);
      && (forall i :: 0 <= i < |ts| ==> Exists(fs', ts[i].path))
      && |rs| == |ts|
      && (forall i :: 0 <= i < |ts| ==> rs[i].path == ts[i].path)
    decreases |ts|
  {
    if |ts| > 0 {
      var next, tail := Next(fs, ts[0]), ts[1..];
      WriteTemplatesCovers(next, tail);
      WriteTemplatesKeeps(next, tail);
      var fs', rs := WriteTemplates(next, tail).0, WriteTemplates(next, tail).1;
      var rs0 := WriteTemplates(fs, ts).1;
      assert rs0 == [ReportFor(fs, ts[0])] + rs;
      forall i | 0 <= i < |ts|
        ensures Exists(fs', ts[i].path) && rs0[i].path == ts[i].path
      {
        if i > 0 {
          assert ts[i] == tail[i - 1];
          assert rs0[i] == rs[i - 1];
        }
      }
    }
  }

  /**
   Writing the templates never touches what exists: every directory and every
   existing file is kept with its contents, each template path exists
   afterwards, and the only new files are template paths that were free.
   */
  lemma WriteTemplatesPreserves(fs: FileSystem, ts: seq<Template>)
    ensures var (fs', rs) := WriteTemplates(fs, ts);
      && fs'.dirs == fs.dirs
      && (forall p :: p in fs.files ==> p in fs'.files && fs'.files[p] == fs.files[p])
      && (forall i :: 0 <= i < |ts| ==> Exists(fs', ts[i].path))
      && (forall p :: p in fs'.files ==> p in fs.files || (p in Paths(ts) && p !in fs.dirs))
      && |rs| == |ts|
      && (forall i :: 0 <= i < |ts| ==> rs[i].path == ts[i].path)
  {
    WriteTemplatesKeeps(fs, ts);
    WriteTemplatesCovers(fs, ts);
  }

  /**
   With distinct paths, the report for each template is "skip" exactly when
   something already existed at its path, and a created file holds the
   template's contents.
   */
  lemma {:induction false} WriteTemplatesReports(fs: FileSystem, ts: seq<Template>)
    requires DistinctPaths(ts)
    ensures var (fs', rs) := WriteTemplates(fs, ts);
      && |rs| == |ts|
      && (forall i :: 0 <= i < |ts| ==> (rs[i] == Skip(ts[i].path) <==> Exists(fs, ts[i].path)))
      && (forall i :: 0 <= i < |ts| ==> (rs[i] == Create(ts[i].path) <==> !Exists(fs, ts[i].path)))
      && (forall i :: 0 <= i < |ts| && !Exists(fs, ts[i].path) ==>
            ts[i].path in fs'.files && fs'.files[ts[i].path] == ts[i].content)
    decreases |ts|
  {
    if |ts| > 0 {
      var t, tail := ts[0], ts[1..];
      assert DistinctPaths(tail) by {
        forall i, j | 0 <= i < j < |tail| ensures tail[i].path != tail[j].path {
          assert tail[i] == ts[i + 1] && tail[j] == ts[j + 1];
        }
      }
      var next := Next(fs, t);
      WriteTemplatesReports(next, tail);
      WriteTemplatesKeeps(next, tail);
      WriteTemplatesCovers(fs, ts);
      var fs', rs := WriteTemplates(next, tail).0, WriteTemplates(next, tail).1;
      var rs0 := WriteTemplates(fs, ts).1;
      assert rs0 == [ReportFor(fs, t)] + rs;
      forall i | 0 <= i < |ts|
        ensures rs0[i] == Skip(ts[i].path) <==> Exists(fs, ts[i].path)
        ensures rs0[i] == Create(ts[i].path) <==> !Exists(fs, ts[i].path)
        ensures !Exists(fs, ts[i].path) ==> ts[i].path in fs'.files && fs'.files[ts[i].path] == ts[i].content
      {
        if i > 0 {
          assert ts[i] == tail[i - 1];
          assert ts[i].path != t.path;
          assert Exists(next, ts[i].path) == Exists(fs, ts[i].path);
          assert rs0[i] == rs[i - 1];
        } else if !Exists(fs, t.path) {
          assert t.path in next.files && next.files[t.path] == t.content;
        }
      }
    }
  }

  predicate AllSkipped(rs: seq<Report>, ts: seq<Template>) {
    |rs| == |ts| && forall i :: 0 <= i < |ts| ==> rs[i] == Skip(ts[i].path)
  }

  /** Where every template path already exists, the template loop only skips and changes nothing. */
  lemma {:induction false} WriteTemplatesAllPresent(fs: FileSystem, ts: seq<Template>)
    requires forall i :: 0 <= i < |ts| ==> Exists(fs, ts[i].path)
    ensures WriteTemplates(fs, ts).0 == fs
    ensures AllSkipped(WriteTemplates(fs, ts).1, ts)
    decreases |ts|
  {
    if |ts| > 0 {
      var tail := ts[1..];
      assert forall i :: 0 <= i < |tail| ==> tail[i] == ts[i + 1];
      WriteTemplatesAllPresent(fs, tail);
      var rs0 := WriteTemplates(fs, ts).1;
      var rs := WriteTemplates(fs, tail).1;
      assert rs0 == [Skip(ts[0].path)] + rs;
      forall i | 0 < i < |ts|
        ensures rs0[i] == Skip(ts[i].path)
      {
        assert rs0[i] == rs[i - 1];
      }
    }
  }

  /** The templates may be written into the freshly made directories: no template is one of them. */
  predicate Writable(ts: seq<Template>) {
    DistinctPaths(ts) && ClaudeDir !in Paths(ts) && CommandsDir !in Paths(ts)
  }

  /**
   Scaffolding never overwrites and touches nothing else: the directories are
   the old ones plus the two it makes; every existing file is still there with
   its contents, and every new file is at a template path. Afterwards every
   template path exists, the reports say "skip" exactly for the paths that
   existed before and "create" exactly for the others, and each created file
   holds its template.
   */
  predicate NeverOverwrites(fs: FileSystem, ts: seq<Template>, fs': FileSystem, rs: seq<Report>) {
    && fs'.dirs == fs.dirs + {ClaudeDir, CommandsDir}
    && (forall p :: p in fs.files ==> p in fs'.files && fs'.files[p] == fs.files[p])
    && (forall p :: p in fs'.files ==> p in fs.files || p in Paths(ts))
    && (forall i :: 0 <= i < |ts| ==> Exists(fs', ts[i].path))
    && |rs| == |ts|
    && (forall i :: 0 <= i < |ts| ==> (rs[i] == Skip(ts[i].path) <==> Exists(fs, ts[i].path)))
    && (forall i :: 0 <= i < |ts| ==> (rs[i] == Create(ts[i].path) <==> !Exists(fs, ts[i].path)))
    && (forall i :: 0 <= i < |ts| && !Exists(fs, ts[i].path) ==>
          ts[i].path in fs'.files && fs'.files[ts[i].path] == ts[i].content)
  }

  lemma InitWithNeverOverwrites(fs: FileSystem, ts: seq<Template>)
    requires Writable(ts)
    requires InitWith(fs, ts).Success?
    ensures NeverOverwrites(fs, ts, InitWith(fs, ts).value.0, InitWith(fs, ts).value.1)
  {
    var made := CreateCommandsDir(fs).value;
    WriteTemplatesPreserves(made, ts);
    WriteTemplatesReports(made, ts);
    forall i | 0 <= i < |ts|
      ensures Exists(made, ts[i].path) == Exists(fs, ts[i].path)
    {
      assert ts[i].path in Paths(ts);
    }
  }

  /** Run again over its own result, scaffolding succeeds, reports "skip" for every template and changes nothing. */
  lemma InitWithIdempotent(fs: FileSystem, ts: seq<Template>)
    requires Writable(ts)
    requires InitWith(fs, ts).Success?
    ensures var fs1 := InitWith(fs, ts).value.0;
      && InitWith(fs1, ts).Success?
      && InitWith(fs1, ts).value.0 == fs1
      && AllSkipped(InitWith(fs1, ts).value.1, ts)
  {
    var made := CreateCommandsDir(fs).value;
    WriteTemplatesPreserves(made, ts);
    var fs1 := InitWith(fs, ts).value.0;
    assert fs1.dirs == made.dirs;
    assert CreateCommandsDir(fs1).value == fs1;
    WriteTemplatesAllPresent(fs1, ts);
  }

  /**
   `init_project` never overwrites what exists, creates exactly the missing
   templates and adds no other file or directory than `.claude` and `.claude/commands`.
   */
  lemma InitNeverOverwrites(fs: FileSystem)
    requires InitProject(fs).Success?
    ensures NeverOverwrites(fs, GetTemplates(), InitProject(fs).value.0, InitProject(fs).value.1)
  {
    TemplatesWellFormed();
    InitWithNeverOverwrites(fs, GetTemplates());
  }

  /**
   `init_project` is idempotent: run again over its own result, it succeeds,
   reports "skip" for every template path and changes nothing.
   */
  lemma InitIdempotent(fs: FileSystem)
    requires InitProject(fs).Success?
    ensures var fs1 := InitProject(fs).value.0;
      && InitProject(fs1).Success?
      && InitProject(fs1).value.0 == fs1
      && AllSkipped(InitProject(fs1).value.1, GetTemplates())
  {
    TemplatesWellFormed();
    InitWithIdempotent(fs, GetTemplates());
  }

  /** After scaffolding, the loop's default prompt and PRD paths exist. */
  lemma InitProvidesLoopInputs(fs: FileSystem)
    requires InitProject(fs).Success?
    ensures Exists(InitProject(fs).value.0, DefaultPromptPath)
    ensures Exists(InitProject(fs).value.0, DefaultPrdPath)
  {
    var ts := GetTemplates();
    InitNeverOverwrites(fs);
    assert ts[8].path == DefaultPromptPath;
    assert ts[1].path == DefaultPrdPath;
  }
}

=== FILE: wrappers.dfy ===
/** The outcome of an operation that can fail: a value, or an error describing the failure (Rust's `Result<T, E>`). */
module Wrappers {

  datatype Result<+T, +E> = Success(value: T) | Failure(error: E)
}
